=== FILE: README.md ===
# PothosGPU adapter core in Dafny

This project models the layer that connects the Pothos dataflow framework to the ArrayFire array library. The parts modelled are:

- **Type bridge.** It covers the closed set of stream type names, including `int8` and the complex integer types, and their ArrayFire `af::dtype` counterparts. It also covers the backend names, the validation of a type against a block's four support flags, the complex/float pairing check, and the typed read of one array element.
- **Thread device selection.** The active backend and device are a small state record. Selecting a device is a first-match lookup in a catalog of `(backend, index, name)` entries. Both setters are gated on per-thread configuration.
- **The Scale block's label protocol.** Each call scans the input labels in offset order. A label with the configured id at offset 0 sets the scale factor. A label with that id at a positive offset cuts the batch short, so that the label arrives at offset 0 on the next call. The model also covers the consume/produce accounting and the factory's table of accumulator types.
- **The FFT, real-FFT, MinMax and Constant blocks.** For each block the model covers its factory (which type descriptors give which block, and which give `InvalidArgument`), the ports and signals set up by its constructor, and the skeleton of its `work()` call.
- **Test-side helpers.** These pack equal-length stream buffers into the rows of a two-dimensional array and unpack them again, compare two buffers, and list the test type names. The model also covers the dtype and backend conversion tables that the enum-conversion tests fix.
- **The block generator's type-string builder.** It fills `dtypeString` and `defaultType` into each type-support dictionary.

Modules:

| module | file | contents |
|---|---|---|
| `Outcomes` | outcomes.dfy | `Option`, `Result`, the exception kinds and the shared "Unsupported type" context |
| `Arith` | arith.dfy | multiplication and division facts used by the count and shape proofs |
| `DTypes` | dtypes.dfy | stream types and names, `af::dtype`, backends |
| `Streams` | streams.dfy | labels, signals, port specs, two-dimensional device arrays |
| `Utility` | utility.dfy | Source/Utility.cpp |
| `Scale` | scale.dfy | Source/Comms/Scale.cpp |
| `FFT` | fft.dfy | Source/FFT.cpp |
| `MinMax` | minmax.dfy | Source/MinMax.cpp |
| `Constant` | constant.dfy | Source/Constant.cpp |
| `TestUtility` | test_utility.dfy | Testing/TestUtility.cpp |
| `EnumConversions` | enum_conversions.dfy | Testing/TestEnumConversions.cpp |
| `GenBlocks` | gen_blocks.dfy | BlockGen/GenBlocks.py |

Modelling conventions:

- **Exceptions** become `Err` values of `Result`. The exception kind and its context/detail strings are kept.
- **Block state** is an immutable record. A setter returns the updated record, and emitted signals are appended to a list.
- **`work()`** is a function (or, for MinMax, a method). It takes the values the framework would supply (`minElements`, the input labels, the buffers) and returns what the call consumes, produces and posts.
- **Numeric kernels** and the fixed-point multiply are parameters. These are the ArrayFire FFTs and Scale's Q-format multiply. The index-returning `af::min`/`af::max` over a buffer is a concrete linear search, `MinMax.Extremum`, whose contract admits any extremal index.
- **Uninitialised or indeterminate values** are parameters too: `unset` is whatever Scale's never-assigned fixed-point factor holds, and the in-place FFT loop's write-back `assign` is a parameter, so that ArrayFire's assignment through an index array (as written) and the row assignment (as intended) run through the same loop.
- **Element type.** MinMax compares integers. Scale's label payload is a `real`, standing for `convert<double>()`.
- **Per-thread configuration.** Whether the ArrayFire build allows it (`isAFConfigPerThread()`) is a boolean parameter.

## Model

| member | source | states |
|---|---|---|
| DTypes.ToAfDType | Testing/TestEnumConversions.cpp:47-74 | a stream type has an ArrayFire type exactly when it is a real type other than int8 or a complex floating-point type, and converting back gives the same stream type |
| DTypes.FromAfDType | Testing/TestEnumConversions.cpp:56-57 | an ArrayFire type converts to a stream type exactly when it is neither b8 nor f16 |
| DTypes.AfDTypeRoundTrip | Testing/TestEnumConversions.cpp:51-57 | ArrayFire type → stream type → ArrayFire type is the identity wherever the first step is defined |
| DTypes.ElemNameRoundTrip | Testing/TestEnumConversions.cpp:51-57 | a type is recovered from its name, so type names such as "complex_float32" determine the type |
| DTypes.ElemNameInjective | Source/Utility.cpp:131-136 | two types have the same name exactly when they are the same type |
| DTypes.ParseBackend | Testing/TestEnumConversions.cpp:26-45 | a backend string that converts gives the enum value whose name is that string |
| Streams.NumDims | Testing/TestUtility.cpp:194 | a rows×columns array counts as two-dimensional exactly when it has at least one row and at least two columns |
| Utility.SetThreadAFBackend | Source/Utility.cpp:14-33 | succeeds exactly when configuration is per thread, and the active backend is then the requested one; otherwise RuntimeError with the state unchanged; no backend's device changes |
| Utility.FindDevice | Source/Utility.cpp:44-52 | returns the first catalog entry matching backend and name, and None exactly when no entry matches |
| Utility.SetThreadAFDevice | Source/Utility.cpp:35-77 | succeeds exactly when configuration is per thread and some catalog entry matches (active backend, name); the active device then becomes the first match's index; a miss gives NotFound(backend name, device) and a non-per-thread build gives RuntimeError, both leaving the state unchanged; the backend and other backends' devices never change |
| Utility.ValidateDType | Source/Utility.cpp:79-120 | needs one support flag; a denylisted name is rejected with the "not supported by any block" error whatever the flags; a type is accepted exactly when its kind's flag is set; every error carries the type name |
| Utility.DenylistIsExactlyTheUnrepresentable | Source/Utility.cpp:89-101 | the nine denylisted names are exactly the names of the types ArrayFire cannot hold |
| Utility.DenylistIgnoresSupport | Source/Utility.cpp:102-107 | for a type ArrayFire cannot hold, validation gives the same denylist error under any flags |
| DTypes.ToStringShowsDimension | Source/Comms/Scale.cpp:152 | the full type description used in Scale's error starts with the type name and differs from it exactly when the dimension is not 1 |
| Utility.ValidatedTypesHaveAfDType | Source/Utility.cpp:109-119 | every type that passes validation has an ArrayFire type |
| Utility.ValidateComplexAndFloatTypesMatch | Source/Utility.cpp:122-142 | for a complex-float and a real-float type, succeeds exactly when the complex type is the complex form of the float type; the error is "Incompatible types" with both names |
| Utility.ResolveIndex | Source/Utility.cpp:148 | ArrayFire's reading of `afArray(index)` for a signed index: defined exactly from -n to n-1, a negative index naming the element that many from the end |
| Utility.GetArrayIndexOfUnknownType | Source/Utility.cpp:144-178 | an index outside -n..n-1 fails first, whatever the type; otherwise Ok exactly for the 11 ArrayFire types other than b8 and f16, returning the element the index names (end-relative when negative), typed as the matching stream type; b8 and f16 give AssertionViolation "Invalid dtype" |
| Utility.EndRelativeIndexReadsSameElement | Source/Utility.cpp:144-148 | for every element i of an n-element array, index i - n reads the same element with the same outcome as index i |
| Scale.ScaleFactory | Source/Comms/Scale.cpp:138-153 | accepts exactly double, float, int64, int32, int16 and int8 and their complex forms, with the fixed-point scalar double→double, float→float, int64→int64, int32→int64, int16→int32, int8→int16 and an accumulator of the element's complexity over it; the block keeps the type and dimension, reports factor 0, has an empty label id and has no multiplier set yet; otherwise InvalidArgument("scaleFactory(" + toString() + ")", "unsupported type"), the description including the dimension |
| Scale.ScalePortsCarryRequestedType | Source/Comms/Scale.cpp:58-59 | the one input and the one output port are both port 0 and carry exactly the requested type, dimension included |
| Scale.AccumulatorNeverNarrower | Source/Comms/Scale.cpp:146-151 | the accumulator type is at least as wide as the element type, with the same signedness and floating-point-ness |
| Scale.UnsignedTypesRejected | Source/Comms/Scale.cpp:146-152 | every unsigned type is rejected |
| Scale.SetFactor | Source/Comms/Scale.cpp:62-71 | the getter then returns the factor set, the multiply reads it from then on, and nothing else changes |
| Scale.SetLabelId | Source/Comms/Scale.cpp:73-81 | the getter then returns the id set, and nothing else changes |
| Scale.ApplyCallsAppend | Source/Comms/Scale.cpp:62-81 | running two call sequences one after the other equals running their concatenation |
| Scale.ApplyCallsFrame | Source/Comms/Scale.cpp:62-81 | a sequence without factor setters leaves the factor unchanged, and one without id setters leaves the id unchanged |
| Scale.GetFactorReturnsLastSet | Source/Comms/Scale.cpp:62-71 | after any call sequence, getFactor returns the last value passed to setFactor |
| Scale.GetLabelIdReturnsLastSet | Source/Comms/Scale.cpp:73-81 | after any call sequence, getLabelId returns the last id passed to setLabelId |
| Scale.ScanLabels | Source/Comms/Scale.cpp:95-114 | the batch never grows and stays positive; a shortened batch ends at a matching label; the factor is either unchanged or the payload of a matching label at offset 0 |
| Scale.ScanSetsFactorMatchesReference | Source/Comms/Scale.cpp:96-104 | for labels sorted by offset and a non-empty batch, the loop calls setFactor exactly when a matching label sits at offset 0 |
| Scale.ScanMatchesReference | Source/Comms/Scale.cpp:96-114 | for labels sorted by offset, the batch ends at the first matching label with a positive offset inside the batch, or at the batch length if there is none; the factor is the payload of the last matching label at offset 0, or unchanged if there is none |
| Scale.LastPayloadAfterAdvance | Source/Comms/Scale.cpp:106-112 | after consuming n elements, the labels at offset 0 are those that were at offset n |
| Scale.AdvanceSorted | Source/Comms/Scale.cpp:106-112 | consuming keeps the labels sorted by offset |
| Scale.TruncatedLabelAppliesOnNextCall | Source/Comms/Scale.cpp:106-112 | when a call cuts the batch at a matching label, the next call (after consuming the shortened batch) sets the factor to that offset's last payload |
| Scale.IrrelevantLabelsIgnored | Source/Comms/Scale.cpp:96-99 | labels with another id, or at or past the batch end, change neither the batch length nor the factor |
| Scale.TwoLabelExample | Source/Comms/Scale.cpp:98-112 | labels at offsets 0 and 12 on a 20-element batch: 12 elements at the first payload, then the second payload from the next call on |
| Scale.Work | Source/Comms/Scale.cpp:83-127 | with no input nothing happens; otherwise consume equals produce, is positive and at most the input count; an empty label id consumes everything and leaves the block as it is; only the two factors can change, and the reported factor only together with the multiplier; the output has consumed×dimension items, no more than the input holds, each the input item multiplied by the multiplier, which is the last factor set or, if none was ever set, the indeterminate `unset` |
| Scale.WorkIgnoresOutputCapacity | Source/Comms/Scale.cpp:86-126 | the batch is sized from the input alone: with no label id and one input element more than the output holds, the call produces and writes more than the output holds |
| Scale.WorkWithinOutput | Source/Comms/Scale.cpp:86-126 | the call with the batch bounded by the output too: it never produces more than either side holds, produces nothing exactly when one side is empty, and is the same call as Scale.Work whenever the output has room for the input batch |
| Scale.WorkFollowsLabels | Source/Comms/Scale.cpp:83-127 | with a label id and sorted labels, the call consumes up to the first matching label with a positive offset, the factor becomes the last matching payload at offset 0, and the multiplier is set exactly when such a payload exists |
| Scale.FreshBlockReadsUnsetFactor | Source/Comms/Scale.cpp:117-122 | a block fresh from the factory reports factor 0.0, yet its first output item is the input multiplied by the indeterminate `unset` |
| Scale.ScaleFactoryInitialised | Source/Comms/Scale.cpp:51-53 | the factory with the multiplier initialised to the reported 0.0; it succeeds and fails exactly when the factory does |
| Scale.InitialisedBlockScalesByFactor | Source/Comms/Scale.cpp:117-122 | from the initialising factory, after any setter calls and a work call, the multiplier equals the reported factor and every output item is the input scaled by that factor, whatever `unset` is |
| FFT.IsPowerOfTwoCorrect | Source/FFT.cpp:23-31 | the power-of-two test holds exactly for the numbers 2^k; 0 is not one |
| FFT.Pow2IsPowerOfTwo | Source/FFT.cpp:23-31 | every 2^k passes the power-of-two test |
| FFT.PowerOfTwoIsPow2 | Source/FFT.cpp:23-31 | every number that passes the power-of-two test is some 2^k |
| FFT.SetNormalizationFactor | Source/FFT.cpp:103-113 | the getter then returns the value set, the change signal is emitted with it, and nothing else changes |
| FFT.NewFFTBlock | Source/FFT.cpp:52-90 | exactly nchans inputs and nchans outputs, numbered 0..nchans-1 and typed In and Out; the normalisation factor is norm and its signal was emitted; the warning is issued exactly when numBins is not a power of two, and construction never fails |
| FFT.MakeFFT | Source/FFT.cpp:225-245 | accepts exactly complex_float32 and complex_float64, whatever their dimension; in and out types are that type; inverse chooses ifftInPlace over fftInPlace; otherwise InvalidArgument("Unsupported type", name) |
| FFT.MakeFFTPortsFit | Source/FFT.cpp:232-239 | every complex FFT block's ports match what its transform reads and writes |
| FFT.MakeRFFTAsWritten | Source/FFT.cpp:247-284 | accepts exactly float32 and float64; forward gets a complex input and a real output, inverse a real input and a complex output; the C2R odd flag is numBins odd |
| FFT.RFFTAsWrittenPortsMismatch | Source/FFT.cpp:270-275 | every real-FFT block built as written has ports that do not match its transform |
| FFT.RFFTAsWrittenCounterexample | Source/FFT.cpp:273-274 | a forward float32 real FFT gets a complex_float32 input port in front of a real-to-complex transform |
| FFT.MakeRFFT | Source/FFT.cpp:247-284 | accepts exactly float32 and float64; the ports match the transform (forward reads T and writes complex T, inverse the reverse); inverse gives C2R with odd exactly when numBins is odd; otherwise InvalidArgument("Unsupported type", name) |
| FFT.FactoriesIgnoreDimension | Source/FFT.cpp:225-284 | only the element type of the requested type matters: factories give the same result for every dimension |
| FFT.OutputBufferSizes | Source/FFT.cpp:96-101 | the output slab is numBins times the output element size: 8 or 16 bytes per bin for complex float32/float64 output, 4 or 8 for real float32/float64; the real-FFT blocks as written get the swapped size, real for forward and complex for inverse |
| FFT.Work | Source/FFT.cpp:138-166 | the in-place block's call as intended: no elements touches no port; otherwise one row per channel is posted |
| FFT.WorkChannelsIndependent | Source/FFT.cpp:155-165 | as intended, what a channel posts depends on its own input row alone |
| FFT.WorkAsWritten | Source/FFT.cpp:138-166 | the call with the write-back as a parameter: no elements touches no port; otherwise the channel loop hands each transformed row and its channel index to the write-back, and the array it leaves, one row per channel, is posted |
| FFT.RowLoopTransformsRemainingRows | Source/FFT.cpp:155-165 | with the row write-back, the loop from channel `chan` on keeps the earlier rows and replaces every later row by its own transform, by induction over the channels |
| FFT.RowAssignmentGivesWork | Source/FFT.cpp:155-165 | for every input, the loop with the intended row write-back posts exactly what FFT.Work posts, so the write-back is the only difference between the loop and the intended call |
| FFT.WorkAsWrittenCounterexample | Source/FFT.cpp:160-162 | one channel holding the impulse [1,0,0,0], whose transform is [1,1,1,1]: with the write-back as written (`AssignByValue`, integer positions), the posted row is [1,1,0,0], where the intended call posts [1,1,1,1] |
| MinMax.MinMaxFactory | Source/MinMax.cpp:82-105 | accepts exactly int16, int32, uint8, uint16, uint32, float32 and float64; the label name is "MIN" for the min factory and "MAX" for the max one; both ports carry the type at dimension 1; otherwise InvalidArgument("Unsupported type", name) |
| MinMax.MinMaxRejected | Source/MinMax.cpp:93-104 | int8, int64, uint64 and every complex type are rejected |
| MinMax.Extremum | Source/MinMax.cpp:53-60 | returns the index of a minimum (or maximum) element of a non-empty buffer |
| MinMax.Work | Source/MinMax.cpp:42-69 | with no elements nothing happens; otherwise the call consumes the element count, forwards the taken buffer unchanged, and posts a label with the block's name whose offset is the position of an extremal element and whose value is that element |
| Constant.SetConstant | Source/Constant.cpp:63-67 | stores the ArrayFire form of the value and emits "constantChanged" with the value as given; nothing else changes |
| Constant.GetConstantReturnsSet | Source/Constant.cpp:58-67 | the getter returns the value last set, given that the conversion out of ArrayFire's form undoes the conversion into it |
| Constant.ConstantFactory | Source/Constant.cpp:80-106 | accepts exactly the 11 types ArrayFire holds; the output port has the base type with the requested dimension; the constant is stored and signalled once; otherwise InvalidArgument("Unsupported type", name) |
| Constant.Work | Source/Constant.cpp:45-56 | with no elements nothing is posted; otherwise an array of exactly that many copies of the stored constant, of the block's ArrayFire type |
| TestUtility.AllDTypeNamesAreTheAfTypes | Testing/TestUtility.cpp:171-190 | the list names each type ArrayFire can hold exactly once, and no other type (no int8, no complex integer) |
| TestUtility.SingleTestInputType | Testing/TestUtility.cpp:151-169 | a single test value exists exactly for the listed names, of the type with that name; other names give the null object |
| TestUtility.ConstantFactoryAcceptsTestList | Source/Constant.cpp:85-105 | the Constant factory succeeds exactly for the types named in the test list |
| TestUtility.ConvertBufferChunksTo2DAfArray | Testing/TestUtility.cpp:206-221 | fails on an empty list and on a type without an ArrayFire type; otherwise an array of chunk count × first chunk's length whose row i is chunk i |
| TestUtility.Convert2DAfArrayToBufferChunks | Testing/TestUtility.cpp:192-204 | fails unless the array is two-dimensional and of a stream-representable type; otherwise one chunk per row, chunk i holding row i at dimension 1 |
| TestUtility.PackThenUnpack | Testing/TestUtility.cpp:192-221 | chunks of one ArrayFire type, dimension 1 and at least two elements come back unchanged from packing then unpacking |
| TestUtility.UnpackThenPack | Testing/TestUtility.cpp:192-221 | a two-dimensional array of a stream-representable type comes back unchanged from unpacking then packing |
| TestUtility.SingleElementChunksRejected | Testing/TestUtility.cpp:192-221 | chunks of one element pack but do not unpack, because one column does not count as a second dimension |
| TestUtility.FirstMismatch | Testing/TestUtility.cpp:42-45 | finds the first position where the comparison fails, and None exactly when it holds everywhere |
| TestUtility.TestBufferChunk | Testing/TestUtility.cpp:37-109 | fails unless the dtypes and the `elements()` counts agree; then integer buffers pass exactly when their first `elements()` items are equal, real float buffers exactly when those items are pairwise close, complex buffers exactly when every item is close, and other types pass |
| TestUtility.DimensionOneComparesEveryItem | Testing/TestUtility.cpp:78-109 | at dimension 1 an integer buffer passes exactly when it equals the expected buffer |
| TestUtility.WiderElementsCompareOnlyAPrefix | Testing/TestUtility.cpp:37-45 | two int16 buffers of dimension 2 that differ only in their second item pass, because only `elements()` items are compared |
| TestUtility.UnlistedTypesCompareOnlyShape | Testing/TestUtility.cpp:89-109 | int8 and complex integer buffers are never compared element by element |
| EnumConversions.DTypeEnumUsageByAfType | Testing/TestEnumConversions.cpp:47-58 | the dtype check passes exactly when the ArrayFire type names a stream type with that name |
| EnumConversions.DTypeTableByAfType | Testing/TestEnumConversions.cpp:60-74 | the table holds exactly the pairs of a representable ArrayFire type and its stream type's name |
| EnumConversions.DTypeTableIsExact | Testing/TestEnumConversions.cpp:47-74 | the dtype check passes for exactly the 11 table pairs, whose names are the test list in order |
| EnumConversions.DTypeConversionBothWays | Testing/TestEnumConversions.cpp:60-62 | a stream type converts to an ArrayFire type exactly when that ArrayFire type converts back to it |
| EnumConversions.BackendTableIsExact | Testing/TestEnumConversions.cpp:26-45 | the backend check passes for exactly "CPU", "CUDA" and "OpenCL" with their enum values, and every backend round-trips through its name |
| GenBlocks.GenerateDTypeDictEntries | BlockGen/GenBlocks.py:54-61 | only dtypeString and defaultType are written; with supportAll they are the all-types string and float64; otherwise splitting dtypeString at commas gives exactly the present flags' entries in the order int, uint, float, cfloat, and defaultType is the reference default for those flags |
| GenBlocks.PresentEntriesAreEntries | BlockGen/GenBlocks.py:47-60 | walking the key table keeps exactly the present keys' entries, in table order |
| GenBlocks.SubstringTestsReadFlags | BlockGen/GenBlocks.py:61 | "float=1" occurs in the joined string exactly when float or cfloat is set, and "cfloat=1" exactly when cfloat is set |
| GenBlocks.DefaultTypeMatchesFlags | BlockGen/GenBlocks.py:61 | the string-based default equals the reference: float64 for float without cfloat, else the 64-bit type of the first kind present, complex_float64 for cfloat alone, "64" for none |
| GenBlocks.SupportAllStringIsAllEntries | BlockGen/GenBlocks.py:56-58 | the supportAll string is the one all four flags would give |
| GenBlocks.DefaultTypeIsAccepted | BlockGen/GenBlocks.py:61 | with any flag set, the default type is a real type name that the block's own flags accept; with none it is not a type name |
| GenBlocks.UpdateBlock | BlockGen/GenBlocks.py:68-70 | each of the given keys present in a block gets its dictionary filled in; all other keys are unchanged |
| GenBlocks.GenerateFactory | BlockGen/GenBlocks.py:63-70 | every block of every category keeps its keys; its supportedTypes, supportedInputTypes and supportedOutputTypes dictionaries are filled in and everything else is unchanged |

## Left out

- Numeric kernels are not modelled: the ArrayFire FFT, inverse FFT, R2C and C2R calls. They are foreign calls, given as a `kernel` parameter. The `gfor` variant of the channel loop is modelled as the sequential `for` loop.
- Scale.Work: the output items are `mul(multiplier, input[i])`, where `mul` stands for the `floatToQ`/`fromQ` fixed-point multiply. That multiply lives in a header that is not part of this model. The output buffer's room is not a parameter of `Scale.Work`, which follows the source in sizing the batch from `minInElements` alone; the overrun this allows is stated by `Scale.WorkIgnoresOutputCapacity` and listed under Findings.
- FFT.WorkAsWritten: the write-back is the parameter `assign`, assumed to keep the array's shape; `FFT.AssignByValue` models ArrayFire's assignment through an index array only for integer values. What it does with complex index values (convert them to positions or reject them) is ArrayFire's and is not modelled; the counterexample uses integer values as positions.
- The real-FFT block's `work` is not modelled. It assigns a transform result of a different length and element type back into the input array's row (Source/FFT.cpp:211), and what ArrayFire does with that assignment is not part of this model.
- Scale.ScanLabels: label payloads are already `real`. `label.data.convert<double>()` throws when an offset-0 label's payload is not numeric, and that exception is not modelled.
- Constant.ConstantFactory: the constant arrives already typed. `constant.convert<T>()` throws when the object cannot be converted to the block's type, and that exception is not modelled.
- DTypes.ToString: the "name[dimension]" format is the framework's `DType::toString`, whose implementation is not part of this model.
- MinMax.Extremum: the contract allows any extremal index; the tie-breaking of `af::min`/`af::max` is not modelled. Elements are integers rather than the block's floating-point or integer C++ types.
- TestUtility.TestBufferChunk: floating-point closeness (the 1e-6 tolerance) is a `close` parameter. Complex buffers are compared element by element on the abstract value type instead of on their real and imaginary parts. The requires `ComplexReadInBounds` makes the caller supply as many complex items in `actual` as `expected` holds, since the comparison reads that many; it also needs a positive dimension, since `elements()` divides by the type's size.
- TestUtility.ConvertBufferChunksTo2DAfArray: the column count is the buffer's item count, which is `elements()` only at dimension 1. For wider types, ArrayFire's assignment of the converted buffer into a row of `elements()` columns is not modelled.
- Utility.GetArrayIndexOfUnknownType: an index outside the array fails with the model's own `IndexOutOfRange` error. The kind and text of the `af::exception` ArrayFire throws there belong to ArrayFire and are not modelled.
- Floating-point values in general: Scale's factor, FFT's normalisation and Constant's value are `real` or abstract. Conversions between Pothos objects and ArrayFire scalars are parameters (`toAf`/`fromAf`), and Utility.GetArrayIndexOfUnknownType returns the stored element unconverted.
- FFT.NewFFTBlock: `isPowerOfTwo` is modelled as the exact integer predicate, not as the `std::log2` floating-point comparison. It only decides whether a warning is logged.
- DTypes.Backend: has no `AF_BACKEND_DEFAULT`. `setThreadAFBackend` passes that value on to `af::setBackend`, which picks the default backend itself; which backend that is belongs to ArrayFire's runtime, which is not modelled.
- FFT.OutputBufferSizes: stated only for numBins below 2^60. Above that the `size_t` product wraps; the wrap itself is written out in `FFT.OutputBufferSize`.
- Streams.NumDims: the rule that trailing unit dimensions do not count is ArrayFire's `numdims`, whose implementation is not part of this model.
- Source/ArrayFireBlock.hpp and Source/OneToOneBlock.hpp are not part of this model. They are declarations only, and their adapter bodies, the `DeviceCache` builder and `PothosToAF` are not shown.
- The kind predicates `isDTypeInt`, `isDTypeUInt`, `isDTypeFloat` and `isDTypeComplexFloat` are declared in a header that is not part of this model. They are taken as: real signed integer, real unsigned integer, real floating point, complex floating point.
- Block registration, probes, Poco logging and the concurrent construction of the device cache are not modelled: they are framework plumbing. A logged warning is kept as a field of the block record.
- Random test inputs (`af::randu`, `setSeed`, `getTestInputs`) are not modelled, because randomness is not deterministic.
- `addMinMaxToAfArray` is not modelled: its templated body is not shown.
- Testing/FileIOTests.cpp is not modelled. It is temporary files, `af::saveArray` and topology execution, that is, I/O and scheduling.
- From BlockGen/GenBlocks.py, the Mako templates, YAML loading, `generateBlockExecutionTest` and the file writes are not modelled, because they are I/O and templating.
- GenBlocks.GenerateDTypeDictEntries: the entry order, and with it the default type, follows the key table in its written order. That is `dict` iteration order on Python 3.7 and later (and CPython 3.6). Under Python 2, which the `#!/usr/bin/env python` line may select, the order follows the hashes and the first kind present can differ.
- GenBlocks.GenerateFactory: requires the three type keys, when present, to hold dictionaries. With any other value there the script would fail on item assignment.
- Exception messages are kept as their context and detail strings. The backend message text, with the ArrayFire version inserted by `Poco::format`, is abbreviated.

## Findings

| source | as written | input that shows it | evidently intended | confidence | as-written member | corrected member |
|---|---|---|---|---|---|---|
| Source/FFT.cpp:160-162 | the in-place FFT loop writes the transformed row back with `afArray(row) = row`, an assignment through an index array that takes the row's values as positions | one channel of four bins holding the impulse [1,0,0,0], transform [1,1,1,1]: read as positions, the value 1 is written four times at position 1, and [1,1,0,0] is posted | `afArray.row(chan) = row` | medium, not executed | FFT.WorkAsWritten with FFT.AssignByValue (shown by FFT.WorkAsWrittenCounterexample) | FFT.Work (FFT.RowAssignmentGivesWork) |
| Source/Comms/Scale.cpp:51-53 | the constructor initialises `_factor` but not `_factorScaled`, which `work` multiplies by until the first `setFactor` | build a block from the factory, set no factor and send no label, call `work`: getFactor reports 0.0 but the output is scaled by an indeterminate value | initialise `_factorScaled` from 0.0, as `setFactor(0.0)` would | low (the GUI sets the documented default 0.0 through the setter), not executed | Scale.ScaleFactory with Scale.Work (shown by Scale.FreshBlockReadsUnsetFactor) | Scale.ScaleFactoryInitialised (Scale.InitialisedBlockScalesByFactor) |
| Source/Comms/Scale.cpp:86 | the batch is `minInElements`, counted over the input only, and `elems*dimension` items are written through the output buffer and produced without comparing with the output's room; the FFT, Constant and MinMax blocks use `minElements` or `minAllElements`, which count the outputs too | an output with room for 1 element, an input of 2 elements and no label id: 2 elements are written and produced | `workInfo().minElements` | low (output buffers are usually larger than an input batch), not executed | Scale.Work (shown by Scale.WorkIgnoresOutputCapacity) | Scale.WorkWithinOutput |
| Source/FFT.cpp:273-274 | the forward real FFT is built as `RFFTBlock<std::complex<T>, T>` (complex input, real output) and the inverse as `RFFTBlock<T, std::complex<T>>`, while forward applies `fftR2C` (real in, complex out) and inverse `fftC2R` (complex in, real out) | `makeRFFT(float32, 1024, 1.0, 1, false)`: input port complex_float32 feeding a real-to-complex transform | forward `RFFTBlock<T, std::complex<T>>`, inverse `RFFTBlock<std::complex<T>, T>` | medium, not executed | FFT.MakeRFFTAsWritten (shown by FFT.RFFTAsWrittenPortsMismatch and FFT.RFFTAsWrittenCounterexample) | FFT.MakeRFFT |

=== FILE: arith.dfy ===
/** Arithmetic facts the shape and count proofs share. */
module Arith {
  /** Multiplying by a natural number keeps the order. */
  lemma MulMonotone(a: int, b: int, n: nat)
    requires a <= b
    ensures a * n <= b * n
  {
    assert b * n - a * n == (b - a) * n;
  }

  /** Whole quotients: `d` copies of `x / d` fit in `x`. */
  lemma DivFits(x: nat, d: nat)
    requires d > 0
    ensures (x / d) * d <= x && x / d <= x
  {
    MulMonotone(1, d, x / d);
  }
}

=== FILE: constant.dfy ===
/** The Constant block: a source that fills each output buffer with copies
    of one stored value, with a getter, a setter and a change signal.

    The value is kept in ArrayFire's representation (`W`) and converted from
    and to the stream representation (`V`) by a pair of conversions. */
module Constant {
  import opened Outcomes
  import opened DTypes
  import opened Streams

  datatype ConstantBlock<V, W> = ConstantBlock(
    device: string,
    elem: ElemType,
    afType: AfDType,
    output: PortSpec,
    stored: W,
    emitted: seq<Signal<V>>)

  const ConstantChanged: string := "constantChanged"

  /** Stores the ArrayFire form of `constant` and emits the change signal
      with the value as given. */
  function SetConstant<V, W>(b: ConstantBlock<V, W>, constant: V, toAf: V -> W): (r: ConstantBlock<V, W>)
    ensures r.stored == toAf(constant)
    ensures r.emitted == b.emitted + [Signal(ConstantChanged, constant)]
    ensures r.(stored := b.stored, emitted := b.emitted) == b
  {
    b.(stored := toAf(constant), emitted := b.emitted + [Signal(ConstantChanged, constant)])
  }

  function GetConstant<V, W>(b: ConstantBlock<V, W>, fromAf: W -> V): V {
    fromAf(b.stored)
  }

  /** The getter returns what the setter was given, as long as the
      conversion back from ArrayFire's representation undoes the one into it. */
  lemma GetConstantReturnsSet<V, W>(b: ConstantBlock<V, W>, constant: V, toAf: V -> W, fromAf: W -> V)
    requires forall v :: fromAf(toAf(v)) == v
    ensures GetConstant(SetConstant(b, constant, toAf), fromAf) == constant
  {
  }

  /** The constructor: output port of the base type with the requested
      dimension, ArrayFire type, then the value through the setter. */
  function NewConstant<V, W>(device: string, t: ElemType, a: AfDType, dimension: nat, constant: V, toAf: V -> W,
                             placeholder: W): ConstantBlock<V, W>
  {
    SetConstant(ConstantBlock(device, t, a, PortSpec(0, DType(t, dimension)), placeholder, []), constant, toAf)
  }

  /** The factory behind "/arrayfire/data/constant". */
  function ConstantFactory<V, W>(device: string, dtype: DType, constant: V, toAf: V -> W): (r: Result<ConstantBlock<V, W>>)
    ensures r.Ok? <==> HasAfDType(dtype.elem)
    ensures r.Ok? ==> r.value.elem == dtype.elem && ToAfDType(dtype.elem) == Some(r.value.afType)
    ensures r.Ok? ==> r.value.output == PortSpec(0, DType(dtype.elem, dtype.dimension))
    ensures r.Ok? ==> r.value.device == device && r.value.stored == toAf(constant)
    ensures r.Ok? ==> r.value.emitted == [Signal(ConstantChanged, constant)]
    ensures r.Err? ==> r.error == InvalidArgument(UnsupportedType, Name(dtype))
  {
    var placeholder := toAf(constant);
    var d := dtype.dimension;
    match FromDType(dtype, 1).elem
    case Real(Int16) => Ok(NewConstant(device, Real(Int16), S16, d, constant, toAf, placeholder))
    case Real(Int32) => Ok(NewConstant(device, Real(Int32), S32, d, constant, toAf, placeholder))
    case Real(Int64) => Ok(NewConstant(device, Real(Int64), S64, d, constant, toAf, placeholder))
    case Real(UInt8) => Ok(NewConstant(device, Real(UInt8), U8, d, constant, toAf, placeholder))
    case Real(UInt16) => Ok(NewConstant(device, Real(UInt16), U16, d, constant, toAf, placeholder))
    case Real(UInt32) => Ok(NewConstant(device, Real(UInt32), U32, d, constant, toAf, placeholder))
    case Real(UInt64) => Ok(NewConstant(device, Real(UInt64), U64, d, constant, toAf, placeholder))
    case Real(Float32) => Ok(NewConstant(device, Real(Float32), F32, d, constant, toAf, placeholder))
    case Real(Float64) => Ok(NewConstant(device, Real(Float64), F64, d, constant, toAf, placeholder))
    case Complex(Float32) => Ok(NewConstant(device, Complex(Float32), C32, d, constant, toAf, placeholder))
    case Complex(Float64) => Ok(NewConstant(device, Complex(Float64), C64, d, constant, toAf, placeholder))
    case _ => Err(InvalidArgument(UnsupportedType, Name(dtype)))
  }

  /** One call of `work`: nothing with no room at the output, otherwise an
      array of `minElements` copies of the stored value posted to port 0. */
  function Work<V, W>(b: ConstantBlock<V, W>, minElements: nat): (r: Option<AfArray<W>>)
    ensures r.None? <==> minElements == 0
    ensures r.Some? ==> r.value.dtype == b.afType && r.value.dims0 == minElements && r.value.dims1 == 1
    ensures r.Some? ==> WellShaped(r.value) && forall i :: 0 <= i < |r.value.data| ==> r.value.data[i] == b.stored
  {
    if minElements == 0 then None
    else Some(AfArray(b.afType, minElements, 1, seq(minElements, _ => b.stored)))
  }
}

=== FILE: dtypes.dfy ===
/** The type bridge between stream element types and ArrayFire element types.

    A stream type is an element type plus a vector dimension. Element types
    are a closed set: ten scalar types and the complex form of each. Only
    eleven of the twenty have an ArrayFire counterpart; int8 and every
    complex integer type have none. */
module DTypes {
  import opened Outcomes

  datatype Scalar =
    | Int8 | Int16 | Int32 | Int64
    | UInt8 | UInt16 | UInt32 | UInt64
    | Float32 | Float64

  /** `Complex(s)` is the element type `std::complex<s>`. */
  datatype ElemType = Real(scalar: Scalar) | Complex(scalar: Scalar)

  /** A stream type descriptor: element type and vector dimension. */
  datatype DType = DType(elem: ElemType, dimension: nat)

  predicate IsSignedScalar(s: Scalar) {
    s.Int8? || s.Int16? || s.Int32? || s.Int64?
  }

  predicate IsUnsignedScalar(s: Scalar) {
    s.UInt8? || s.UInt16? || s.UInt32? || s.UInt64?
  }

  predicate IsFloatScalar(s: Scalar) {
    s.Float32? || s.Float64?
  }

  function ScalarName(s: Scalar): (name: string)
    ensures 0 < |name| < 8
  {
    match s
    case Int8 => "int8"
    case Int16 => "int16"
    case Int32 => "int32"
    case Int64 => "int64"
    case UInt8 => "uint8"
    case UInt16 => "uint16"
    case UInt32 => "uint32"
    case UInt64 => "uint64"
    case Float32 => "float32"
    case Float64 => "float64"
  }

  const ComplexPrefix: string := "complex_"

  /** The name a stream type reports, e.g. "int16" or "complex_float32". */
  function ElemName(t: ElemType): string {
    match t
    case Real(s) => ScalarName(s)
    case Complex(s) => ComplexPrefix + ScalarName(s)
  }

  function Name(d: DType): string {
    ElemName(d.elem)
  }

  /** The decimal digits of `n`, most significant first. */
  function DecimalString(n: nat): (s: string)
    ensures |s| >= 1 && forall i :: 0 <= i < |s| ==> '0' <= s[i] <= '9'
    decreases n
  {
    if n < 10 then [(n + '0' as int) as char]
    else DecimalString(n / 10) + DecimalString(n % 10)
  }

  /** The framework's `DType::toString()`: the name, followed by the
      dimension in brackets when it is not 1, as in "int16[4]". */
  function ToString(d: DType): string {
    if d.dimension == 1 then Name(d) else Name(d) + "[" + DecimalString(d.dimension) + "]"
  }

  /** The full description names the type, and differs from the bare name
      exactly when the dimension is not 1. */
  lemma ToStringShowsDimension(d: DType)
    ensures ToString(d)[..|Name(d)|] == Name(d)
    ensures ToString(d) == Name(d) <==> d.dimension == 1
  {
    if d.dimension != 1 {
      assert |ToString(d)| > |Name(d)|;
    }
  }

  function ParseScalarName(name: string): (r: Option<Scalar>)
    ensures r.Some? ==> ScalarName(r.value) == name
  {
    if name == "int8" then Some(Int8)
    else if name == "int16" then Some(Int16)
    else if name == "int32" then Some(Int32)
    else if name == "int64" then Some(Int64)
    else if name == "uint8" then Some(UInt8)
    else if name == "uint16" then Some(UInt16)
    else if name == "uint32" then Some(UInt32)
    else if name == "uint64" then Some(UInt64)
    else if name == "float32" then Some(Float32)
    else if name == "float64" then Some(Float64)
    else None
  }

  /** Looks a type up by name; `None` for a name outside the closed set. */
  function ParseElemName(name: string): (r: Option<ElemType>)
    ensures r.Some? ==> ElemName(r.value) == name
  {
    if |name| >= |ComplexPrefix| && name[..|ComplexPrefix|] == ComplexPrefix then
      match ParseScalarName(name[|ComplexPrefix|..])
      case Some(s) => assert name == ComplexPrefix + name[|ComplexPrefix|..]; Some(Complex(s))
      case None => None
    else
      match ParseScalarName(name)
      case Some(s) => Some(Real(s))
      case None => None
  }

  lemma ScalarNameRoundTrip(s: Scalar)
    ensures ParseScalarName(ScalarName(s)) == Some(s)
  {
  }

  /** Every element type is recovered from its name, so names are unique. */
  lemma ElemNameRoundTrip(t: ElemType)
    ensures ParseElemName(ElemName(t)) == Some(t)
  {
    ScalarNameRoundTrip(t.scalar);
    match t
    case Real(s) =>
    case Complex(s) =>
      var n := ElemName(t);
      assert n[..|ComplexPrefix|] == ComplexPrefix;
      assert n[|ComplexPrefix|..] == ScalarName(s);
  }

  lemma ElemNameInjective(t: ElemType, u: ElemType)
    ensures ElemName(t) == ElemName(u) <==> t == u
  {
    if ElemName(t) == ElemName(u) {
      ElemNameRoundTrip(t);
      ElemNameRoundTrip(u);
    }
  }

  /** `sizeof` of a scalar C++ type, in bytes. */
  function ScalarSize(s: Scalar): nat {
    match s
    case Int8 => 1
    case UInt8 => 1
    case Int16 => 2
    case UInt16 => 2
    case Int32 => 4
    case UInt32 => 4
    case Float32 => 4
    case Int64 => 8
    case UInt64 => 8
    case Float64 => 8
  }

  /** `sizeof` of the C++ type behind an element type; a complex value is a
      pair of scalars. */
  function SizeOf(t: ElemType): nat {
    if t.Complex? then 2 * ScalarSize(t.scalar) else ScalarSize(t.scalar)
  }

  /** `Pothos::DType::fromDType(d, dim)`: same element type, new dimension. */
  function FromDType(d: DType, dimension: nat): DType {
    DType(d.elem, dimension)
  }

  /** ArrayFire's element types (`af::dtype`). */
  datatype AfDType = F32 | C32 | F64 | C64 | B8 | S32 | U32 | U8 | S64 | U64 | S16 | U16 | F16

  /** The element types ArrayFire can hold: every real type but int8, and
      the two complex floating-point types. */
  predicate HasAfDType(t: ElemType) {
    match t
    case Real(s) => !s.Int8?
    case Complex(s) => IsFloatScalar(s)
  }

  function ToAfDType(t: ElemType): (r: Option<AfDType>)
    ensures r.Some? <==> HasAfDType(t)
    ensures r.Some? ==> FromAfDType(r.value) == Some(t)
  {
    match t
    case Real(Int16) => Some(S16)
    case Real(Int32) => Some(S32)
    case Real(Int64) => Some(S64)
    case Real(UInt8) => Some(U8)
    case Real(UInt16) => Some(U16)
    case Real(UInt32) => Some(U32)
    case Real(UInt64) => Some(U64)
    case Real(Float32) => Some(F32)
    case Real(Float64) => Some(F64)
    case Complex(Float32) => Some(C32)
    case Complex(Float64) => Some(C64)
    case _ => None
  }

  /** The inverse direction; b8 and f16 have no stream counterpart. */
  function FromAfDType(a: AfDType): (r: Option<ElemType>)
    ensures r.Some? <==> !(a.B8? || a.F16?)
  {
    match a
    case S16 => Some(Real(Int16))
    case S32 => Some(Real(Int32))
    case S64 => Some(Real(Int64))
    case U8 => Some(Real(UInt8))
    case U16 => Some(Real(UInt16))
    case U32 => Some(Real(UInt32))
    case U64 => Some(Real(UInt64))
    case F32 => Some(Real(Float32))
    case F64 => Some(Real(Float64))
    case C32 => Some(Complex(Float32))
    case C64 => Some(Complex(Float64))
    case B8 => None
    case F16 => None
  }

  /** Going from an ArrayFire type to a stream type and back is the identity. */
  lemma AfDTypeRoundTrip(a: AfDType)
    ensures FromAfDType(a).Some? ==> ToAfDType(FromAfDType(a).value) == Some(a)
  {
  }

  /** ArrayFire's execution backends that have a string name. */
  datatype Backend = CPU | CUDA | OpenCL

  function BackendName(b: Backend): string {
    match b
    case CPU => "CPU"
    case CUDA => "CUDA"
    case OpenCL => "OpenCL"
  }

  function ParseBackend(name: string): (r: Option<Backend>)
    ensures r.Some? ==> BackendName(r.value) == name
  {
    if name == "CPU" then Some(CPU)
    else if name == "CUDA" then Some(CUDA)
    else if name == "OpenCL" then Some(OpenCL)
    else None
  }
}

=== FILE: enum_conversions.dfy ===
/** The conversion tables the enum-conversion tests pin down: stream type
    names against ArrayFire element types, and backend names against
    ArrayFire backends. */
module EnumConversions {
  import opened Outcomes
  import opened DTypes
  import TestUtility

  /** The pairs the dtype test checks, in its order. */
  const DTypeTable: seq<(string, AfDType)> := [
    ("int16", S16),
    ("int32", S32),
    ("int64", S64),
    ("uint8", U8),
    ("uint16", U16),
    ("uint32", U32),
    ("uint64", U64),
    ("float32", F32),
    ("float64", F64),
    ("complex_float32", C32),
    ("complex_float64", C64)
  ]

  /** One dtype check: the name converts to `af`, and `af` converts back to
      a type of that name. */
  predicate DTypeEnumUsage(name: string, af: AfDType) {
    match ParseElemName(name)
    case None => false
    case Some(t) => ToAfDType(t) == Some(af) && FromAfDType(af).Some? && ElemName(FromAfDType(af).value) == name
  }

  /** A dtype check passes exactly when `af` names a stream type called `name`. */
  lemma DTypeEnumUsageByAfType(name: string, af: AfDType)
    ensures DTypeEnumUsage(name, af) <==> FromAfDType(af).Some? && ElemName(FromAfDType(af).value) == name
  {
    if FromAfDType(af).Some? && ElemName(FromAfDType(af).value) == name {
      ElemNameRoundTrip(FromAfDType(af).value);
      AfDTypeRoundTrip(af);
    }
  }

  /** The table holds exactly the pairs of an ArrayFire type with a stream
      counterpart and that counterpart's name. */
  lemma DTypeTableByAfType(name: string, af: AfDType)
    ensures (name, af) in DTypeTable <==> FromAfDType(af).Some? && ElemName(FromAfDType(af).value) == name
  {
    if (name, af) in DTypeTable {
      var i :| 0 <= i < |DTypeTable| && DTypeTable[i] == (name, af);
      assert i < 11;
      if i == 9 {
        assert ElemName(Complex(Float32)) == "complex_float32";
      } else if i == 10 {
        assert ElemName(Complex(Float64)) == "complex_float64";
      }
    } else if FromAfDType(af).Some? {
      match af
      case C32 => assert ElemName(Complex(Float32)) == "complex_float32";
      case C64 => assert ElemName(Complex(Float64)) == "complex_float64";
      case _ =>
    }
  }

  /** The check passes for exactly the pairs of the table, and the table's
      names are the test list's names in the same order. */
  lemma DTypeTableIsExact(name: string, af: AfDType)
    ensures DTypeEnumUsage(name, af) <==> (name, af) in DTypeTable
    ensures |DTypeTable| == |TestUtility.AllDTypeNames|
    ensures forall i :: 0 <= i < |DTypeTable| ==> DTypeTable[i].0 == TestUtility.AllDTypeNames[i]
  {
    DTypeEnumUsageByAfType(name, af);
    DTypeTableByAfType(name, af);
  }

  /** The two conversions are inverse partial bijections: a stream type
      converts to an ArrayFire type exactly when that type converts back. */
  lemma DTypeConversionBothWays(t: ElemType, af: AfDType)
    ensures ToAfDType(t) == Some(af) <==> FromAfDType(af) == Some(t)
  {
    if FromAfDType(af) == Some(t) {
      AfDTypeRoundTrip(af);
    }
  }

  /** The pairs the backend test checks. */
  const BackendTable: seq<(string, Backend)> := [("CPU", CPU), ("CUDA", CUDA), ("OpenCL", OpenCL)]

  /** One backend check: the string converts to the enum and back. */
  predicate EnumValueConversion(name: string, b: Backend) {
    ParseBackend(name) == Some(b) && BackendName(b) == name
  }

  /** The backend check passes for exactly the pairs of the table, and
      conversion succeeds in both directions for every backend. */
  lemma BackendTableIsExact(name: string, b: Backend)
    ensures EnumValueConversion(name, b) <==> (name, b) in BackendTable
    ensures ParseBackend(BackendName(b)) == Some(b)
  {
    if (name, b) in BackendTable {
      assert BackendTable[0] == (name, b) || BackendTable[1] == (name, b) || BackendTable[2] == (name, b);
    }
    match b
    case CPU => assert BackendTable[0] == (BackendName(b), b);
    case CUDA => assert BackendTable[1] == (BackendName(b), b);
    case OpenCL => assert BackendTable[2] == (BackendName(b), b);
  }
}

=== FILE: fft.dfy ===
/** The FFT and real-FFT blocks: one input and one output port per channel,
    a normalisation factor with a getter, setter and change signal, an
    output buffer manager sized for one transform of `numBins` bins, and
    factories that choose the element types from the requested type.

    The transforms themselves are ArrayFire calls; `work` hands every
    channel's row to one of them. */
module FFT {
  import opened Outcomes
  import opened DTypes
  import opened Streams
  import opened Arith

  /*
   * Powers of two
   */

  function Pow2(k: nat): (p: nat)
    ensures p >= 1
  {
    if k == 0 then 1 else 2 * Pow2(k - 1)
  }

  /** Whether `n` is a power of two; 0 is not. */
  function IsPowerOfTwo(n: nat): bool
    decreases n
  {
    if n == 0 then false
    else if n == 1 then true
    else n % 2 == 0 && IsPowerOfTwo(n / 2)
  }

  lemma {:induction false} Pow2IsPowerOfTwo(k: nat)
    ensures IsPowerOfTwo(Pow2(k))
  {
    if k > 0 {
      Pow2IsPowerOfTwo(k - 1);
      assert Pow2(k) / 2 == Pow2(k - 1);
    }
  }

  lemma {:induction false} PowerOfTwoIsPow2(n: nat)
    requires IsPowerOfTwo(n)
    ensures exists k: nat :: Pow2(k) == n
    decreases n
  {
    if n == 1 {
      assert Pow2(0) == 1;
    } else {
      PowerOfTwoIsPow2(n / 2);
      var k: nat :| Pow2(k) == n / 2;
      assert Pow2(k + 1) == n;
    }
  }

  /** The predicate agrees with the definition "2 to some power". */
  lemma IsPowerOfTwoCorrect(n: nat)
    ensures IsPowerOfTwo(n) <==> exists k: nat :: Pow2(k) == n
  {
    if IsPowerOfTwo(n) {
      PowerOfTwoIsPow2(n);
    } else if exists k: nat :: Pow2(k) == n {
      var k: nat :| Pow2(k) == n;
      Pow2IsPowerOfTwo(k);
    }
  }

  /*
   * Blocks
   */

  /** The ArrayFire call a block applies to each channel. `odd` tells the
      complex-to-real transform whether the real output length is odd. */
  datatype Transform = FftInPlace | IfftInPlace | FftR2C | FftC2R(odd: bool)

  /** The element types a transform reads and writes agree with the
      block's port types. */
  predicate PortsFitTransform(transform: Transform, inType: ElemType, outType: ElemType) {
    match transform
    case FftInPlace => inType.Complex? && outType == inType
    case IfftInPlace => inType.Complex? && outType == inType
    case FftR2C => inType.Real? && outType == Complex(inType.scalar)
    case FftC2R(_) => inType.Complex? && outType == Real(inType.scalar)
  }

  const FFTBlockPath: string := "/arrayfire/signal/fft"
  const RFFTBlockPath: string := "/arrayfire/signal/rfft"
  const NormChanged: string := "normalizationFactorChanged"

  /** A constructed FFT or real-FFT block. `warning` holds the logger the
      "numBins is not a power of 2" warning went to, if it was issued;
      `emitted` lists the signals emitted so far. */
  datatype FFTBlock = FFTBlock(
    transform: Transform,
    inType: ElemType,
    outType: ElemType,
    numBins: nat,
    norm: real,
    nchans: nat,
    inputs: seq<PortSpec>,
    outputs: seq<PortSpec>,
    warning: Option<string>,
    emitted: seq<Signal<real>>)

  function GetNormalizationFactor(b: FFTBlock): real {
    b.norm
  }

  /** Stores the factor and emits the change signal with it. */
  function SetNormalizationFactor(b: FFTBlock, norm: real): (r: FFTBlock)
    ensures GetNormalizationFactor(r) == norm
    ensures r.emitted == b.emitted + [Signal(NormChanged, norm)]
    ensures r.(norm := b.norm, emitted := b.emitted) == b
  {
    b.(norm := norm, emitted := b.emitted + [Signal(NormChanged, norm)])
  }

  /** The base-class constructor: ports, warning, then the factor through
      its setter. */
  function NewFFTBlock(transform: Transform, inType: ElemType, outType: ElemType,
                       numBins: nat, norm: real, nchans: nat, path: string): (b: FFTBlock)
    ensures b.transform == transform && b.inType == inType && b.outType == outType
    ensures b.numBins == numBins && b.nchans == nchans
    ensures |b.inputs| == nchans && |b.outputs| == nchans
    ensures forall c :: 0 <= c < nchans ==>
      b.inputs[c] == PortSpec(c, DType(inType, 1)) && b.outputs[c] == PortSpec(c, DType(outType, 1))
    ensures GetNormalizationFactor(b) == norm
    ensures b.emitted == [Signal(NormChanged, norm)]
    ensures b.warning.Some? <==> !exists k: nat :: Pow2(k) == numBins
    ensures b.warning.Some? ==> b.warning.value == path
  {
    IsPowerOfTwoCorrect(numBins);
    var inputs := seq(nchans, c requires 0 <= c => PortSpec(c, DType(inType, 1)));
    var outputs := seq(nchans, c requires 0 <= c => PortSpec(c, DType(outType, 1)));
    var warning := if IsPowerOfTwo(numBins) then None else Some(path);
    SetNormalizationFactor(
      FFTBlock(transform, inType, outType, numBins, 0.0, nchans, inputs, outputs, warning, []),
      norm)
  }

  /** Unsigned 64-bit arithmetic wraps modulo this. */
  const SizeTModulus: nat := 0x1_0000_0000_0000_0000

  /** The slab size requested of the output buffer manager: room for
      `numBins` output elements, computed in `size_t`. */
  function OutputBufferSize(b: FFTBlock): nat {
    (b.numBins * SizeOf(b.outType)) % SizeTModulus
  }

  /*
   * Factories
   */


  /** Complex-to-complex FFT of a complex float type. */
  function MakeFFT(dtype: DType, numBins: nat, norm: real, numChannels: nat, inverse: bool): (r: Result<FFTBlock>)
    ensures r.Ok? <==> dtype.elem == Complex(Float32) || dtype.elem == Complex(Float64)
    ensures r.Ok? ==> r.value.inType == dtype.elem && r.value.outType == dtype.elem
    ensures r.Ok? ==> r.value.transform == (if inverse then IfftInPlace else FftInPlace)
    ensures r.Ok? ==> r.value.numBins == numBins && r.value.nchans == numChannels
    ensures r.Ok? ==> GetNormalizationFactor(r.value) == norm
    ensures r.Err? ==> r.error == InvalidArgument(UnsupportedType, Name(dtype))
  {
    var func := if inverse then IfftInPlace else FftInPlace;
    var t := FromDType(dtype, 1).elem;
    if t == Complex(Float32) || t == Complex(Float64) then
      Ok(NewFFTBlock(func, t, t, numBins, norm, numChannels, FFTBlockPath))
    else
      Err(InvalidArgument(UnsupportedType, Name(dtype)))
  }

  /** The transform a real-FFT block applies: real-to-complex forward,
      complex-to-real inverse, told whether `numBins` is odd. */
  function RealTransform(numBins: nat, inverse: bool): Transform {
    if inverse then FftC2R(numBins % 2 == 1) else FftR2C
  }

  /** Real FFT as the factory is written: the forward block reads
      `complex<T>` and writes `T`, the inverse block reads `T` and writes
      `complex<T>`. */
  function MakeRFFTAsWritten(dtype: DType, numBins: nat, norm: real, numChannels: nat, inverse: bool): (r: Result<FFTBlock>)
    ensures r.Ok? <==> dtype.elem == Real(Float32) || dtype.elem == Real(Float64)
    ensures r.Ok? && !inverse ==> r.value.inType == Complex(dtype.elem.scalar) && r.value.outType == dtype.elem
    ensures r.Ok? && inverse ==> r.value.inType == dtype.elem && r.value.outType == Complex(dtype.elem.scalar)
    ensures r.Ok? ==> r.value.transform == RealTransform(numBins, inverse)
    ensures r.Err? ==> r.error == InvalidArgument(UnsupportedType, Name(dtype))
  {
    var func := RealTransform(numBins, inverse);
    var t := FromDType(dtype, 1).elem;
    if t == Real(Float32) || t == Real(Float64) then
      if inverse then Ok(NewFFTBlock(func, t, Complex(t.scalar), numBins, norm, numChannels, RFFTBlockPath))
      else Ok(NewFFTBlock(func, Complex(t.scalar), t, numBins, norm, numChannels, RFFTBlockPath))
    else
      Err(InvalidArgument(UnsupportedType, Name(dtype)))
  }

  /** As written, every real-FFT block declares ports the transform cannot
      read from or write to: the forward transform consumes real samples
      but the input port carries complex ones. */
  lemma RFFTAsWrittenPortsMismatch(dtype: DType, numBins: nat, norm: real, numChannels: nat, inverse: bool)
    requires MakeRFFTAsWritten(dtype, numBins, norm, numChannels, inverse).Ok?
    ensures var b := MakeRFFTAsWritten(dtype, numBins, norm, numChannels, inverse).value;
      !PortsFitTransform(b.transform, b.inType, b.outType)
  {
  }

  /** The concrete case: a forward float32 real FFT with 1024 bins gets a
      complex_float32 input port in front of a real-to-complex transform. */
  lemma RFFTAsWrittenCounterexample()
    ensures var b := MakeRFFTAsWritten(DType(Real(Float32), 1), 1024, 1.0, 1, false).value;
      && b.transform == FftR2C
      && b.inputs[0].dtype == DType(Complex(Float32), 1)
      && b.outputs[0].dtype == DType(Real(Float32), 1)
  {
  }

  /** Real FFT with the port types the transforms need: forward reads `T`
      and writes `complex<T>`, inverse reads `complex<T>` and writes `T`. */
  function MakeRFFT(dtype: DType, numBins: nat, norm: real, numChannels: nat, inverse: bool): (r: Result<FFTBlock>)
    ensures r.Ok? <==> dtype.elem == Real(Float32) || dtype.elem == Real(Float64)
    ensures r.Ok? ==> PortsFitTransform(r.value.transform, r.value.inType, r.value.outType)
    ensures r.Ok? ==> r.value.inType.scalar == dtype.elem.scalar
    ensures r.Ok? ==> (r.value.inType.Complex? <==> inverse)
    ensures r.Ok? && inverse ==> r.value.transform == FftC2R(numBins % 2 == 1)
    ensures r.Ok? && !inverse ==> r.value.transform == FftR2C
    ensures r.Ok? ==> r.value.numBins == numBins && r.value.nchans == numChannels
    ensures r.Ok? ==> GetNormalizationFactor(r.value) == norm
    ensures r.Err? ==> r.error == InvalidArgument(UnsupportedType, Name(dtype))
  {
    var func := RealTransform(numBins, inverse);
    var t := FromDType(dtype, 1).elem;
    if t == Real(Float32) || t == Real(Float64) then
      if inverse then Ok(NewFFTBlock(func, Complex(t.scalar), t, numBins, norm, numChannels, RFFTBlockPath))
      else Ok(NewFFTBlock(func, t, Complex(t.scalar), numBins, norm, numChannels, RFFTBlockPath))
    else
      Err(InvalidArgument(UnsupportedType, Name(dtype)))
  }

  /** Every block `MakeFFT` builds has ports that fit its transform. */
  lemma MakeFFTPortsFit(dtype: DType, numBins: nat, norm: real, numChannels: nat, inverse: bool)
    requires MakeFFT(dtype, numBins, norm, numChannels, inverse).Ok?
    ensures var b := MakeFFT(dtype, numBins, norm, numChannels, inverse).value;
      PortsFitTransform(b.transform, b.inType, b.outType)
  {
  }

  /** Only the element type of the requested type matters, not its dimension. */
  lemma FactoriesIgnoreDimension(e: ElemType, d1: nat, d2: nat, numBins: nat, norm: real, numChannels: nat, inverse: bool)
    ensures MakeFFT(DType(e, d1), numBins, norm, numChannels, inverse).Ok?
        <==> MakeFFT(DType(e, d2), numBins, norm, numChannels, inverse).Ok?
    ensures MakeRFFT(DType(e, d1), numBins, norm, numChannels, inverse).Ok?
        <==> MakeRFFT(DType(e, d2), numBins, norm, numChannels, inverse).Ok?
    ensures MakeFFT(DType(e, d1), numBins, norm, numChannels, inverse).Ok? ==>
      MakeFFT(DType(e, d1), numBins, norm, numChannels, inverse)
        == MakeFFT(DType(e, d2), numBins, norm, numChannels, inverse)
  {
  }

  /** Slab sizes per bin: 8 bytes for complex_float32 output, 16 for
      complex_float64, 4 for float32 and 8 for float64, as long as the
      product does not wrap. The real-FFT blocks as written size the slab
      from the swapped output type: the forward block gets the real size
      and the inverse block the complex one. */
  lemma OutputBufferSizes(dtype: DType, numBins: nat, norm: real, numChannels: nat, inverse: bool)
    requires numBins < 0x1000_0000_0000_0000
    ensures var r := MakeFFT(dtype, numBins, norm, numChannels, inverse);
      r.Ok? ==> OutputBufferSize(r.value) == numBins * (if dtype.elem.scalar.Float32? then 8 else 16)
    ensures var r := MakeRFFT(dtype, numBins, norm, numChannels, inverse);
      r.Ok? ==>
        OutputBufferSize(r.value) == numBins * (if dtype.elem.scalar.Float32? then 4 else 8) * (if inverse then 1 else 2)
    ensures var r := MakeRFFTAsWritten(dtype, numBins, norm, numChannels, inverse);
      r.Ok? ==>
        OutputBufferSize(r.value) == numBins * (if dtype.elem.scalar.Float32? then 4 else 8) * (if inverse then 2 else 1)
  {
    var r1 := MakeFFT(dtype, numBins, norm, numChannels, inverse);
    if r1.Ok? {
      SlabDoesNotWrap(r1.value);
    }
    var r2 := MakeRFFT(dtype, numBins, norm, numChannels, inverse);
    if r2.Ok? {
      SlabDoesNotWrap(r2.value);
    }
    var r3 := MakeRFFTAsWritten(dtype, numBins, norm, numChannels, inverse);
    if r3.Ok? {
      SlabDoesNotWrap(r3.value);
    }
  }

  lemma SlabDoesNotWrap(b: FFTBlock)
    requires b.numBins < 0x1000_0000_0000_0000
    ensures OutputBufferSize(b) == b.numBins * SizeOf(b.outType)
  {
    MulMonotone(SizeOf(b.outType), 16, b.numBins);
  }

  /*
   * work()
   */

  /** One call of `work` as intended: `rows` holds each channel's input,
      one row per channel, and `kernel` is the ArrayFire transform. `None`
      means the call returned without touching any port; otherwise row `c`
      of the result is posted to output port `c`. */
  function Work<V>(b: FFTBlock, minElements: nat, rows: seq<seq<V>>,
                   kernel: (Transform, real, seq<V>) -> seq<V>): (r: Option<seq<seq<V>>>)
    requires |rows| == b.nchans
    ensures r.None? <==> minElements == 0
    ensures r.Some? ==> |r.value| == b.nchans
  {
    if minElements == 0 then None
    else Some(seq(b.nchans, c requires 0 <= c < b.nchans => kernel(b.transform, b.norm, rows[c])))
  }

  /** Channels do not interfere: what channel `c` posts depends on its own
      input row alone. */
  lemma WorkChannelsIndependent<V>(b: FFTBlock, minElements: nat, rows1: seq<seq<V>>, rows2: seq<seq<V>>,
                                   kernel: (Transform, real, seq<V>) -> seq<V>, c: nat)
    requires |rows1| == b.nchans && |rows2| == b.nchans && minElements > 0
    requires c < b.nchans && rows1[c] == rows2[c]
    ensures Work(b, minElements, rows1, kernel).value[c] == Work(b, minElements, rows2, kernel).value[c]
  {
  }

  /** The channel loop of the in-place block's `work`. Channel by channel,
      from `chan` on, the current array's row `chan` is transformed and
      handed, with the channel index, to `assign`, which writes it back. */
  function ChannelLoop<V(!new)>(arr: seq<seq<V>>, chan: nat, transform: Transform, norm: real,
                                kernel: (Transform, real, seq<V>) -> seq<V>,
                                assign: (seq<seq<V>>, nat, seq<V>) -> seq<seq<V>>): (r: seq<seq<V>>)
    requires forall a, c, v :: |assign(a, c, v)| == |a|
    ensures |r| == |arr|
    decreases |arr| - chan
  {
    if chan >= |arr| then arr
    else ChannelLoop(assign(arr, chan, kernel(transform, norm, arr[chan])), chan + 1, transform, norm,
                     kernel, assign)
  }

  /** One call of the in-place block's `work` with the write-back `assign`.
      As written it is `afArray(row) = row`, which is `AssignByValue`: an
      ArrayFire assignment through an index array, which takes the
      transformed values as positions in the whole array instead of naming
      row `chan`. The intended `afArray.row(chan) = row` is `AssignRow`. */
  function WorkAsWritten<V(!new)>(b: FFTBlock, minElements: nat, rows: seq<seq<V>>,
                                  kernel: (Transform, real, seq<V>) -> seq<V>,
                                  assign: (seq<seq<V>>, nat, seq<V>) -> seq<seq<V>>): (r: Option<seq<seq<V>>>)
    requires |rows| == b.nchans
    requires forall a, c, v :: |assign(a, c, v)| == |a|
    ensures r.None? <==> minElements == 0
    ensures r.Some? ==> |r.value| == b.nchans
  {
    if minElements == 0 then None
    else Some(ChannelLoop(rows, 0, b.transform, b.norm, kernel, assign))
  }

  /** `afArray.row(chan) = row`: row `chan` is replaced and every other row
      is kept. */
  function AssignRow<V>(arr: seq<seq<V>>, chan: nat, row: seq<V>): (r: seq<seq<V>>)
    ensures |r| == |arr|
    ensures forall c :: 0 <= c < |arr| && c != chan ==> r[c] == arr[c]
    ensures chan < |arr| ==> r[chan] == row
  {
    if chan < |arr| then arr[chan := row] else arr
  }

  /** With the row write-back, the loop from `chan` on leaves the rows
      before `chan` alone and replaces each later row by its transform: a
      row is read before anything is written to it. */
  lemma {:induction false} RowLoopTransformsRemainingRows<V(!new)>(
    arr: seq<seq<V>>, chan: nat, transform: Transform, norm: real,
    kernel: (Transform, real, seq<V>) -> seq<V>)
    requires chan <= |arr|
    ensures var r := ChannelLoop(arr, chan, transform, norm, kernel, AssignRow);
      forall c :: 0 <= c < |arr| ==> r[c] == (if c < chan then arr[c] else kernel(transform, norm, arr[c]))
    decreases |arr| - chan
  {
    if chan < |arr| {
      var next := AssignRow(arr, chan, kernel(transform, norm, arr[chan]));
      RowLoopTransformsRemainingRows(next, chan + 1, transform, norm, kernel);
    }
  }

  /** The loop with the intended row write-back posts exactly what `Work`
      posts, for every input: the write-back is the only difference between
      the loop as written and the intended call. */
  lemma RowAssignmentGivesWork<V(!new)>(b: FFTBlock, minElements: nat, rows: seq<seq<V>>,
                                        kernel: (Transform, real, seq<V>) -> seq<V>)
    requires |rows| == b.nchans
    ensures WorkAsWritten(b, minElements, rows, kernel, AssignRow) == Work(b, minElements, rows, kernel)
  {
    if minElements > 0 {
      RowLoopTransformsRemainingRows(rows, 0, b.transform, b.norm, kernel);
      var posted := ChannelLoop(rows, 0, b.transform, b.norm, kernel, AssignRow);
      var intended := Work(b, minElements, rows, kernel).value;
      assert |posted| == |intended|;
      assert forall c :: 0 <= c < |posted| ==> posted[c] == intended[c];
      assert posted == intended;
    }
  }

  /** Assignment through an index array on integer values: `values[k]` is
      written, in order, at column-major position `positions[k]` of the
      array whose rows are `arr`; a position outside the array writes
      nothing. */
  function AssignAtPositions(arr: seq<seq<int>>, positions: seq<int>, values: seq<int>): (r: seq<seq<int>>)
    requires |positions| == |values|
    ensures |r| == |arr|
    decreases |positions|
  {
    if |positions| == 0 then arr
    else
      var p := positions[0];
      var next :=
        if |arr| == 0 || p < 0 || p / |arr| >= |arr[p % |arr|]| then arr
        else arr[p % |arr| := arr[p % |arr|][p / |arr| := values[0]]];
      AssignAtPositions(next, positions[1..], values[1..])
  }

  /** `afArray(row) = row` for an integer row: the row is both the index
      array and the values, and the channel index is not used. */
  function AssignByValue(arr: seq<seq<int>>, chan: nat, row: seq<int>): (r: seq<seq<int>>)
    ensures |r| == |arr|
  {
    AssignAtPositions(arr, row, row)
  }

  /** One channel of four bins holding an impulse. Its transform is all
      ones; the intended `work` posts those ones, but the loop as written
      writes the value 1 four times at position 1 and leaves the rest of
      the input in place. */
  lemma WorkAsWrittenCounterexample(b: FFTBlock, kernel: (Transform, real, seq<int>) -> seq<int>)
    requires b.nchans == 1
    requires kernel(b.transform, b.norm, [1, 0, 0, 0]) == [1, 1, 1, 1]
    ensures WorkAsWritten(b, 1, [[1, 0, 0, 0]], kernel, AssignByValue) == Some([[1, 1, 0, 0]])
    ensures Work(b, 1, [[1, 0, 0, 0]], kernel) == Some([[1, 1, 1, 1]])
  {
    var arr := [[1, 0, 0, 0]];
    var ones := [1, 1, 1, 1];
    var once := [[1, 1, 0, 0]];
    assert ones[1..] == [1, 1, 1] && ones[1..][1..] == [1, 1] && ones[1..][1..][1..] == [1];
    assert [1][1..] == [] && 1 / |arr| == 1 && 1 % |arr| == 0;
    assert arr[0][1 := 1] == once[0] && once[0][1 := 1] == once[0];
    assert AssignAtPositions(once, [], []) == once;
    assert AssignAtPositions(once, [1], [1]) == once;
    assert AssignAtPositions(once, [1, 1], [1, 1]) == once;
    assert AssignAtPositions(once, [1, 1, 1], [1, 1, 1]) == once;
    assert AssignByValue(arr, 0, ones) == once;
    assert ChannelLoop(once, 1, b.transform, b.norm, kernel, AssignByValue) == once;
    var w := Work(b, 1, arr, kernel).value;
    assert |w| == 1 && w[0] == ones;
    assert w == [ones];
  }
}

=== FILE: gen_blocks.dfy ===
/** The block generator's type-string builder: for each block description
    read from the block list, every type-support dictionary gains a
    "dtypeString" (the comma-separated support flags the factory template
    passes on) and a "defaultType" (the type a block is made with when none
    is given). Template rendering and file I/O are not modelled. */
module GenBlocks {
  import opened DTypes
  import opened Utility

  /** A value in the parsed block list. */
  datatype YamlValue = Text(text: string) | Flag(flag: bool) | Dict(entries: map<string, YamlValue>)

  type YamlDict = map<string, YamlValue>

  /*
   * The string operations of the generator
   */

  /** `sep.join(parts)`. */
  function Join(sep: char, parts: seq<string>): string
    decreases |parts|
  {
    if |parts| == 0 then ""
    else if |parts| == 1 then parts[0]
    else parts[0] + [sep] + Join(sep, parts[1..])
  }

  /** `s.split(sep)` for a one-character separator: the fields between
      separators, empty ones included, so there is always at least one. */
  function Split(s: string, sep: char): (r: seq<string>)
    ensures |r| >= 1
    decreases |s|
  {
    if |s| == 0 then [""]
    else
      var rest := Split(s[1..], sep);
      if s[0] == sep then [""] + rest
      else [[s[0]] + rest[0]] + rest[1..]
  }

  /** `w` occurs in `s` starting at position `i`. */
  predicate OccursAt(s: string, w: string, i: nat) {
    i + |w| <= |s| && s[i..i + |w|] == w
  }

  /** `w in s` on strings: `w` occurs in `s` as a contiguous substring. */
  predicate Contains(s: string, w: string) {
    exists i :: 0 <= i <= |s| && OccursAt(s, w, i)
  }

  /** `s.replace(pattern, replacement)`: every non-overlapping occurrence,
      left to right. */
  function ReplaceAll(s: string, pattern: string, replacement: string): string
    requires |pattern| > 0
    decreases |s|
  {
    if |s| < |pattern| then s
    else if s[..|pattern|] == pattern then replacement + ReplaceAll(s[|pattern|..], pattern, replacement)
    else [s[0]] + ReplaceAll(s[1..], pattern, replacement)
  }

  lemma {:induction false} SplitWithoutSeparator(a: string, sep: char)
    requires sep !in a
    ensures Split(a, sep) == [a]
    decreases |a|
  {
    if |a| > 0 {
      SplitWithoutSeparator(a[1..], sep);
      assert [a[0]] + a[1..] == a;
    }
  }

  lemma {:induction false} SplitAtFirstSeparator(a: string, b: string, sep: char)
    requires sep !in a
    ensures Split(a + [sep] + b, sep) == [a] + Split(b, sep)
    decreases |a|
  {
    var s := a + [sep] + b;
    if |a| == 0 {
      assert s[1..] == b;
    } else {
      assert s[1..] == a[1..] + [sep] + b;
      SplitAtFirstSeparator(a[1..], b, sep);
      assert [a[0]] + a[1..] == a;
    }
  }

  /** Splitting a join at the same separator gives the parts back, as long
      as there is a part and none contains the separator. */
  lemma {:induction false} SplitJoin(parts: seq<string>, sep: char)
    requires |parts| > 0
    requires forall k :: 0 <= k < |parts| ==> sep !in parts[k]
    ensures Split(Join(sep, parts), sep) == parts
    decreases |parts|
  {
    if |parts| == 1 {
      SplitWithoutSeparator(parts[0], sep);
    } else {
      SplitJoin(parts[1..], sep);
      SplitAtFirstSeparator(parts[0], Join(sep, parts[1..]), sep);
      assert [parts[0]] + parts[1..] == parts;
    }
  }

  lemma OccursLeftOfSeparator(a: string, b: string, sep: char, w: string, i: nat)
    requires OccursAt(a, w, i)
    ensures OccursAt(a + [sep] + b, w, i)
  {
    var s := a + [sep] + b;
    forall t | i <= t < i + |w|
      ensures s[t] == a[t]
    {
    }
    assert s[i..i + |w|] == a[i..i + |w|];
  }

  lemma OccursRightOfSeparator(a: string, b: string, sep: char, w: string, j: nat)
    requires OccursAt(b, w, j)
    ensures OccursAt(a + [sep] + b, w, j + |a| + 1)
  {
    var s := a + [sep] + b;
    var i := j + |a| + 1;
    forall t | j <= t < j + |w|
      ensures b[t] == s[t + |a| + 1]
    {
    }
    assert s[i..i + |w|] == b[j..j + |w|];
  }

  lemma OccursAroundSeparator(a: string, b: string, sep: char, w: string, i: nat)
    requires sep !in w && OccursAt(a + [sep] + b, w, i)
    ensures || (i + |w| <= |a| && OccursAt(a, w, i))
            || (i > |a| && OccursAt(b, w, i - |a| - 1))
  {
    var s := a + [sep] + b;
    assert s[|a|] == sep;
    assert forall k :: i <= k < i + |w| ==> s[k] == w[k - i];
    if i + |w| <= |a| {
      assert a[i..i + |w|] == s[i..i + |w|];
    } else if i > |a| {
      var j := i - |a| - 1;
      forall t | j <= t < j + |w|
        ensures b[t] == s[t + |a| + 1]
      {
      }
      assert b[j..j + |w|] == s[i..i + |w|];
    }
  }

  /** A word free of the separator occurs in `a sep b` exactly when it
      occurs in `a` or in `b`. */
  lemma ContainsAcrossSeparator(a: string, b: string, sep: char, w: string)
    requires sep !in w
    ensures Contains(a + [sep] + b, w) <==> Contains(a, w) || Contains(b, w)
  {
    var s := a + [sep] + b;
    if Contains(s, w) {
      var i :| 0 <= i <= |s| && OccursAt(s, w, i);
      OccursAroundSeparator(a, b, sep, w, i);
    }
    if Contains(a, w) {
      var i :| 0 <= i <= |a| && OccursAt(a, w, i);
      OccursLeftOfSeparator(a, b, sep, w, i);
    }
    if Contains(b, w) {
      var j :| 0 <= j <= |b| && OccursAt(b, w, j);
      OccursRightOfSeparator(a, b, sep, w, j);
    }
  }

  /** A non-empty word free of the separator occurs in a join exactly when
      it occurs in one of the parts. */
  lemma {:induction false} ContainsInJoin(parts: seq<string>, sep: char, w: string)
    requires |w| > 0 && sep !in w
    ensures Contains(Join(sep, parts), w) <==> exists k :: 0 <= k < |parts| && Contains(parts[k], w)
    decreases |parts|
  {
    if |parts| == 0 {
    } else if |parts| == 1 {
    } else {
      ContainsInJoin(parts[1..], sep, w);
      ContainsAcrossSeparator(parts[0], Join(sep, parts[1..]), sep, w);
      if exists k :: 0 <= k < |parts| && Contains(parts[k], w) {
        var k :| 0 <= k < |parts| && Contains(parts[k], w);
        if k > 0 {
          assert parts[1..][k - 1] == parts[k];
        }
      }
      if exists k :: 0 <= k < |parts| - 1 && Contains(parts[1..][k], w) {
        var k :| 0 <= k < |parts| - 1 && Contains(parts[1..][k], w);
        assert parts[k + 1] == parts[1..][k];
      }
    }
  }

  /*
   * generateDTypeDictEntries
   */

  const SupportAllKey: string := "supportAll"
  const DTypeStringKey: string := "dtypeString"
  const DefaultTypeKey: string := "defaultType"
  const AllTypesString: string := "int=1,uint=1,float=1,cfloat=1"

  /** The support keys and their entries, in the generator's order. */
  const DictEntryKeys: seq<(string, string)> := [
    ("supportInt", "int=1"),
    ("supportUInt", "uint=1"),
    ("supportFloat", "float=1"),
    ("supportComplexFloat", "cfloat=1")
  ]

  /** The entries of the keys present in `d`, in the order of `keys`. */
  function PresentEntries(d: YamlDict, keys: seq<(string, string)>): (r: seq<string>)
    ensures |r| <= |keys|
    decreases |keys|
  {
    if |keys| == 0 then []
    else (if keys[0].0 in d then [keys[0].1] else []) + PresentEntries(d, keys[1..])
  }

  /** The support flags a dictionary sets, by key presence. */
  function SupportOf(d: YamlDict): DTypeSupport {
    DTypeSupport("supportInt" in d, "supportUInt" in d, "supportFloat" in d, "supportComplexFloat" in d)
  }

  /** The flag entries one support record stands for, in the fixed order. */
  function Entries(f: DTypeSupport): seq<string> {
    (if f.supportInt then ["int=1"] else [])
    + (if f.supportUInt then ["uint=1"] else [])
    + (if f.supportFloat then ["float=1"] else [])
    + (if f.supportComplexFloat then ["cfloat=1"] else [])
  }

  lemma PresentEntriesAreEntries(d: YamlDict)
    ensures PresentEntries(d, DictEntryKeys) == Entries(SupportOf(d))
  {
    var keys := DictEntryKeys;
    assert keys[1..][1..][1..][1..] == [];
    assert PresentEntries(d, keys[1..][1..][1..]) == (if "supportComplexFloat" in d then ["cfloat=1"] else []);
  }

  /** The default type a block gets, stated independently of strings: a
      block that takes floats but no complex floats defaults to float64;
      otherwise the first supported kind in the order int, uint, float,
      complex float picks its 64-bit type. With no flag at all the result
      is the bare "64". */
  function DefaultTypeFor(f: DTypeSupport): string {
    if f.supportFloat && !f.supportComplexFloat then "float64"
    else if f.supportInt then "int64"
    else if f.supportUInt then "uint64"
    else if f.supportFloat then "float64"
    else if f.supportComplexFloat then "complex_float64"
    else "64"
  }

  /** The default type as the generator derives it from the type string. */
  function DefaultTypeOf(dtypeString: string): string {
    if Contains(dtypeString, "float=1") && !Contains(dtypeString, "cfloat=1") then "float64"
    else ReplaceAll(Split(Split(dtypeString, '=')[0], ',')[0] + "64", "cfloat64", "complex_float64")
  }

  lemma EntriesFreeOfSeparators(f: DTypeSupport)
    ensures forall k :: 0 <= k < |Entries(f)| ==> ',' !in Entries(f)[k] && '=' in Entries(f)[k]
  {
  }

  /** The two substring tests of the generator read the flags back. */
  lemma SubstringTestsReadFlags(f: DTypeSupport)
    ensures Contains(Join(',', Entries(f)), "float=1") <==> f.supportFloat || f.supportComplexFloat
    ensures Contains(Join(',', Entries(f)), "cfloat=1") <==> f.supportComplexFloat
  {
    var e := Entries(f);
    ContainsInJoin(e, ',', "float=1");
    ContainsInJoin(e, ',', "cfloat=1");
    assert OccursAt("cfloat=1", "float=1", 1);
    assert OccursAt("float=1", "float=1", 0);
    assert OccursAt("cfloat=1", "cfloat=1", 0);
    if f.supportComplexFloat {
      assert e[|e| - 1] == "cfloat=1";
    }
    if f.supportFloat {
      var k := if f.supportInt && f.supportUInt then 2 else if f.supportInt || f.supportUInt then 1 else 0;
      assert e[k] == "float=1";
    }
  }

  /** The kind an entry stands for: the entry without its "=1". */
  function KindOfFirst(f: DTypeSupport): string {
    if f.supportInt then "int"
    else if f.supportUInt then "uint"
    else if f.supportFloat then "float"
    else if f.supportComplexFloat then "cfloat"
    else ""
  }

  lemma FirstFieldOfJoin(kind: string, rest: seq<string>)
    requires ',' !in kind && '=' !in kind
    ensures Split(Split(Join(',', [kind + "=1"] + rest), '=')[0], ',')[0] == kind
  {
    var parts := [kind + "=1"] + rest;
    var tail := if |rest| == 0 then "" else [','] + Join(',', rest);
    assert parts[1..] == rest;
    assert Join(',', parts) == kind + ['='] + ("1" + tail);
    SplitAtFirstSeparator(kind, "1" + tail, '=');
    SplitWithoutSeparator(kind, ',');
  }

  /** The first field of the joined entries is the first entry's kind. */
  lemma FirstKindOfJoin(f: DTypeSupport)
    ensures Split(Split(Join(',', Entries(f)), '=')[0], ',')[0] == KindOfFirst(f)
  {
    var e := Entries(f);
    if |e| > 0 {
      assert e[0] == KindOfFirst(f) + "=1";
      assert e == [KindOfFirst(f) + "=1"] + e[1..];
      FirstFieldOfJoin(KindOfFirst(f), e[1..]);
    }
  }

  /** Only "cfloat64" is rewritten, to "complex_float64". */
  lemma ReplaceCfloat(kind: string)
    requires kind in {"", "int", "uint", "float", "cfloat"}
    ensures ReplaceAll(kind + "64", "cfloat64", "complex_float64") ==
      if kind == "cfloat" then "complex_float64" else kind + "64"
  {
    var s := kind + "64";
    if kind == "cfloat" {
      assert s[..8] == "cfloat64";
      assert s[8..] == "";
    } else {
      assert |s| < 8;
    }
  }

  /** The generator's string-based derivation agrees with the reference. */
  lemma DefaultTypeMatchesFlags(f: DTypeSupport)
    ensures DefaultTypeOf(Join(',', Entries(f))) == DefaultTypeFor(f)
  {
    SubstringTestsReadFlags(f);
    FirstKindOfJoin(f);
    ReplaceCfloat(KindOfFirst(f));
  }

  /** Fills in "dtypeString" and "defaultType" of one support dictionary. */
  function GenerateDTypeDictEntries(d: YamlDict): (r: YamlDict)
    ensures r.Keys == d.Keys + {DTypeStringKey, DefaultTypeKey}
    ensures forall k :: k in d && k != DTypeStringKey && k != DefaultTypeKey ==> r[k] == d[k]
    ensures SupportAllKey in d ==> r[DTypeStringKey] == Text(AllTypesString) && r[DefaultTypeKey] == Text("float64")
    ensures SupportAllKey !in d ==> r[DTypeStringKey].Text? && r[DefaultTypeKey] == Text(DefaultTypeFor(SupportOf(d)))
    ensures SupportAllKey !in d && SupportsSomething(SupportOf(d)) ==>
      r[DTypeStringKey].Text? && Split(r[DTypeStringKey].text, ',') == Entries(SupportOf(d))
    ensures SupportAllKey !in d && !SupportsSomething(SupportOf(d)) ==> r[DTypeStringKey] == Text("")
  {
    if SupportAllKey in d then
      d[DTypeStringKey := Text(AllTypesString)][DefaultTypeKey := Text("float64")]
    else
      var dtypeString := Join(',', PresentEntries(d, DictEntryKeys));
      var defaultType := DefaultTypeOf(dtypeString);
      PresentEntriesAreEntries(d);
      DefaultTypeMatchesFlags(SupportOf(d));
      EntriesFreeOfSeparators(SupportOf(d));
      if SupportsSomething(SupportOf(d)) then
        SplitJoin(Entries(SupportOf(d)), ',');
        d[DTypeStringKey := Text(dtypeString)][DefaultTypeKey := Text(defaultType)]
      else
        d[DTypeStringKey := Text(dtypeString)][DefaultTypeKey := Text(defaultType)]
  }

  /** Joining four parts puts the separator between each neighbouring pair. */
  lemma JoinFour(sep: char, a: string, b: string, c: string, d: string)
    ensures Join(sep, [a, b, c, d]) == a + [sep] + (b + [sep] + (c + [sep] + d))
  {
    var parts := [a, b, c, d];
    assert parts[1..] == [b, c, d] && parts[1..][1..] == [c, d] && parts[1..][1..][1..] == [d];
    assert Join(sep, [d]) == d;
    assert Join(sep, [c, d]) == c + [sep] + d;
    assert Join(sep, [b, c, d]) == b + [sep] + (c + [sep] + d);
  }

  lemma AllTypesStringSpelled()
    ensures "int=1" + [','] + ("uint=1" + [','] + ("float=1" + [','] + "cfloat=1")) == AllTypesString
  {
    assert "float=1" + [','] + "cfloat=1" == "float=1,cfloat=1";
    assert "uint=1" + [','] + "float=1,cfloat=1" == "uint=1,float=1,cfloat=1";
  }

  /** The "supportAll" string is the one all four flags would give. */
  lemma SupportAllStringIsAllEntries()
    ensures Join(',', Entries(DTypeSupport(true, true, true, true))) == AllTypesString
  {
    assert Entries(DTypeSupport(true, true, true, true)) == ["int=1", "uint=1", "float=1", "cfloat=1"];
    JoinFour(',', "int=1", "uint=1", "float=1", "cfloat=1");
    AllTypesStringSpelled();
  }

  /** With at least one flag the default type is a real type name, and it
      is a type the block's own support flags accept. */
  lemma DefaultTypeIsAccepted(f: DTypeSupport)
    ensures SupportsSomething(f) ==>
      ParseElemName(DefaultTypeFor(f)).Some? && ParseElemName(DefaultTypeFor(f)).value in AcceptedTypes(f)
    ensures !SupportsSomething(f) ==> ParseElemName(DefaultTypeFor(f)).None?
  {
    var n := DefaultTypeFor(f);
    if SupportsSomething(f) {
      var t :=
        if f.supportFloat && !f.supportComplexFloat then Real(Float64)
        else if f.supportInt then Real(Int64)
        else if f.supportUInt then Real(UInt64)
        else if f.supportFloat then Real(Float64)
        else Complex(Float64);
      assert ElemName(t) == n;
      ElemNameRoundTrip(t);
    }
  }

  /*
   * generateFactory
   */

  /** The keys of a block description that hold a support dictionary. */
  const TypeKeys: seq<string> := ["supportedTypes", "supportedInputTypes", "supportedOutputTypes"]

  /** Applies the builder to the support dictionaries under `keys`. */
  function UpdateBlock(block: YamlDict, keys: seq<string>): (r: YamlDict)
    requires forall n :: n in keys && n in block ==> block[n].Dict?
    ensures r.Keys == block.Keys
    ensures forall n :: n in block && n !in keys ==> r[n] == block[n]
    ensures forall n :: n in block && n in keys ==> r[n] == Dict(GenerateDTypeDictEntries(block[n].entries))
    decreases |keys|
  {
    if |keys| == 0 then block
    else
      var rest := UpdateBlock(block, keys[1..]);
      if keys[0] in block then
        assert keys[0] !in keys[1..] ==> rest[keys[0]] == block[keys[0]];
        if keys[0] in keys[1..] then rest
        else rest[keys[0] := Dict(GenerateDTypeDictEntries(block[keys[0]].entries))]
      else rest
  }

  /** The generator's pass over every block of every category. */
  function GenerateFactory(yaml: map<string, seq<YamlDict>>): (r: map<string, seq<YamlDict>>)
    requires forall c, i, n :: c in yaml && 0 <= i < |yaml[c]| && n in TypeKeys && n in yaml[c][i] ==> yaml[c][i][n].Dict?
    ensures r.Keys == yaml.Keys
    ensures forall c :: c in yaml ==> |r[c]| == |yaml[c]|
    ensures forall c, i :: c in yaml && 0 <= i < |yaml[c]| ==>
      && r[c][i].Keys == yaml[c][i].Keys
      && (forall n :: n in yaml[c][i] && n !in TypeKeys ==> r[c][i][n] == yaml[c][i][n])
      && (forall n :: n in yaml[c][i] && n in TypeKeys ==>
            r[c][i][n] == Dict(GenerateDTypeDictEntries(yaml[c][i][n].entries)))
  {
    map c | c in yaml :: seq(|yaml[c]|, i requires 0 <= i < |yaml[c]| => UpdateBlock(yaml[c][i], TypeKeys))
  }
}

=== FILE: minmax.dfy ===
/** The buffer minimum and maximum blocks: each call forwards the input
    buffer unchanged to the output and posts a label "MIN" (or "MAX") at the
    offset of the extremal element, carrying that element.

    Elements are modelled as integers; the comparison ArrayFire performs is
    the integer order. */
module MinMax {
  import opened Outcomes
  import opened DTypes
  import opened Streams

  datatype MinMaxBlock = MinMaxBlock(isMin: bool, elem: ElemType, labelName: string, input: PortSpec, output: PortSpec)

  /** The element types the factory accepts. */
  const MinMaxTypes: set<ElemType> := {
    Real(Int16), Real(Int32), Real(UInt8), Real(UInt16), Real(UInt32), Real(Float32), Real(Float64)
  }


  function NewMinMax(isMin: bool, t: ElemType, labelName: string): MinMaxBlock {
    MinMaxBlock(isMin, t, labelName, PortSpec(0, DType(t, 1)), PortSpec(0, DType(t, 1)))
  }

  /** The factory behind "/arrayfire/algorithm/min" (`isMin`) and
      "/arrayfire/algorithm/max". */
  function MinMaxFactory(isMin: bool, dtype: DType): (r: Result<MinMaxBlock>)
    ensures r.Ok? <==> dtype.elem in MinMaxTypes
    ensures r.Ok? ==> r.value.labelName == (if isMin then "MIN" else "MAX") && r.value.isMin == isMin
    ensures r.Ok? ==> r.value.elem == dtype.elem
    ensures r.Ok? ==> r.value.input == PortSpec(0, DType(dtype.elem, 1)) && r.value.output == r.value.input
    ensures r.Err? ==> r.error == InvalidArgument(UnsupportedType, Name(dtype))
  {
    var labelName := if isMin then "MIN" else "MAX";
    match FromDType(dtype, 1).elem
    case Real(Int16) => Ok(NewMinMax(isMin, Real(Int16), labelName))
    case Real(Int32) => Ok(NewMinMax(isMin, Real(Int32), labelName))
    case Real(UInt8) => Ok(NewMinMax(isMin, Real(UInt8), labelName))
    case Real(UInt16) => Ok(NewMinMax(isMin, Real(UInt16), labelName))
    case Real(UInt32) => Ok(NewMinMax(isMin, Real(UInt32), labelName))
    case Real(Float32) => Ok(NewMinMax(isMin, Real(Float32), labelName))
    case Real(Float64) => Ok(NewMinMax(isMin, Real(Float64), labelName))
    case _ => Err(InvalidArgument(UnsupportedType, Name(dtype)))
  }

  /** int8, int64, uint64 and every complex type are refused. */
  lemma MinMaxRejected(isMin: bool, dtype: DType)
    requires dtype.elem in {Real(Int8), Real(Int64), Real(UInt64)} || dtype.elem.Complex?
    ensures MinMaxFactory(isMin, dtype).Err?
  {
  }

  /** `buffer[idx]` is a minimum (`isMin`) or a maximum of `buffer`. */
  predicate Extremal(isMin: bool, buffer: seq<int>, idx: nat)
    requires idx < |buffer|
  {
    forall j :: 0 <= j < |buffer| ==>
      if isMin then buffer[idx] <= buffer[j] else buffer[j] <= buffer[idx]
  }

  /** The index-returning `af::min` / `af::max` over a whole buffer. */
  method Extremum(isMin: bool, buffer: seq<int>) returns (idx: nat)
    requires |buffer| > 0
    ensures idx < |buffer| && Extremal(isMin, buffer, idx)
  {
    idx := 0;
    var i := 1;
    while i < |buffer|
      invariant 1 <= i <= |buffer|
      invariant idx < i
      invariant forall j :: 0 <= j < i ==>
        if isMin then buffer[idx] <= buffer[j] else buffer[j] <= buffer[idx]
    {
      if (isMin && buffer[i] < buffer[idx]) || (!isMin && buffer[i] > buffer[idx]) {
        idx := i;
      }
      i := i + 1;
    }
  }

  /** What one call of `work` did: the count passed to `consume`, the label
      posted and the buffer posted to the output. */
  datatype MinMaxStep = MinMaxStep(consumed: nat, postedLabel: Option<Label<int>>, postedBuffer: Option<seq<int>>)

  /** One call of `work`. `buffer` is the whole input buffer, which the
      block takes; `minAllElements` is the smallest element count across
      its ports. */
  method Work(b: MinMaxBlock, minAllElements: nat, buffer: seq<int>) returns (step: MinMaxStep)
    requires minAllElements <= |buffer|
    ensures minAllElements == 0 ==> step == MinMaxStep(0, None, None)
    ensures minAllElements > 0 ==> step.consumed == minAllElements && step.postedBuffer == Some(buffer)
    ensures minAllElements > 0 ==> step.postedLabel.Some? && step.postedLabel.value.id == b.labelName
    ensures minAllElements > 0 ==>
      var l := step.postedLabel.value;
      l.index < |buffer| && l.data == buffer[l.index] && Extremal(b.isMin, buffer, l.index)
  {
    if minAllElements == 0 {
      return MinMaxStep(0, None, None);
    }
    var idx := Extremum(b.isMin, buffer);
    step := MinMaxStep(minAllElements, Some(Label(b.labelName, buffer[idx], idx)), Some(buffer));
  }
}

=== FILE: outcomes.dfy ===
/** Failure-carrying datatypes shared by every block model.

    The blocks signal failure by throwing one of a handful of framework
    exception kinds; here each throw becomes an `Err` value naming the kind. */
module Outcomes {

  /** The exception kinds the blocks and utilities raise. */
  datatype Error =
    | InvalidArgument(context: string, detail: string)  // unsupported or mismatched type
    | NotFound(backend: string, device: string)          // no such device for the active backend
    | RuntimeError(message: string)                       // per-thread configuration unavailable
    | AssertionViolation(message: string)                 // an impossible array element type
    | TestFailure(message: string)                        // a failed POTHOS_TEST_* assertion
    | IndexOutOfRange(index: int, elements: nat)          // ArrayFire refusing an index outside the array

  /** The context most factories throw `InvalidArgument` with when no block
      exists for the requested type. */
  const UnsupportedType: string := "Unsupported type"

  datatype Option<+T> = None | Some(value: T)

  datatype Result<+T> = Ok(value: T) | Err(error: Error) {
    predicate IsFailure() {
      Err?
    }

    function PropagateFailure<U>(): Result<U>
      requires Err?
    {
      Err(error)
    }

    function Extract(): T
      requires Ok?
    {
      value
    }
  }
}

=== FILE: scale.dfy ===
/** The Scale block: multiplies every input element by a factor, and lets an
    upstream block change that factor at an exact sample by attaching a
    label whose payload is the new factor.

    The label protocol works on the labels of the current input buffer,
    sorted by offset. A matching label at offset 0 sets the factor for the
    whole batch. A matching label at a positive offset ends the batch just
    before it, so on the next call the label sits at offset 0 and takes
    effect from exactly that sample. */
module Scale {
  import opened Outcomes
  import opened DTypes
  import opened Streams
  import opened Arith

  /** A Scale block. `accumulator` is the type the multiply is carried out
      in and `scaleType` the scalar type of the stored fixed-point factor.
      `factor` is what `getFactor` reports; `factorScaled` is the factor the
      multiply reads, as last handed to `setFactor` for conversion to fixed
      point, and `None` until the first `setFactor`, when the constructor
      has left that member uninitialised. */
  datatype ScaleBlock = ScaleBlock(
    elem: ElemType,
    accumulator: ElemType,
    scaleType: Scalar,
    dimension: nat,
    factor: real,
    factorScaled: Option<real>,
    labelId: string)

  /** The single input port. */
  function InputPort(b: ScaleBlock): PortSpec {
    PortSpec(0, DType(b.elem, b.dimension))
  }

  /** The single output port. */
  function OutputPort(b: ScaleBlock): PortSpec {
    PortSpec(0, DType(b.elem, b.dimension))
  }

  /*
   * Factory
   */

  /** The accumulator scalar for each scalar type the block handles. */
  function AccumulatorScalar(s: Scalar): Option<Scalar> {
    match s
    case Float64 => Some(Float64)
    case Float32 => Some(Float32)
    case Int64 => Some(Int64)
    case Int32 => Some(Int64)
    case Int16 => Some(Int32)
    case Int8 => Some(Int16)
    case _ => None
  }

  /** Builds a block for `dtype`, judged by its element type alone. The
      constructor sets the reported factor to 0.0 but not the factor the
      multiply reads. */
  function ScaleFactory(dtype: DType): (r: Result<ScaleBlock>)
    ensures r.Ok? <==> dtype.elem.scalar in {Float64, Float32, Int64, Int32, Int16, Int8}
    ensures dtype.elem.scalar == Float64 ==> r.Ok? && r.value.scaleType == Float64
    ensures dtype.elem.scalar == Float32 ==> r.Ok? && r.value.scaleType == Float32
    ensures dtype.elem.scalar == Int64 ==> r.Ok? && r.value.scaleType == Int64
    ensures dtype.elem.scalar == Int32 ==> r.Ok? && r.value.scaleType == Int64
    ensures dtype.elem.scalar == Int16 ==> r.Ok? && r.value.scaleType == Int32
    ensures dtype.elem.scalar == Int8 ==> r.Ok? && r.value.scaleType == Int16
    ensures r.Ok? ==> r.value.accumulator == (if dtype.elem.Complex? then Complex(r.value.scaleType)
                                              else Real(r.value.scaleType))
    ensures r.Ok? ==> r.value.elem == dtype.elem && r.value.dimension == dtype.dimension
    ensures r.Ok? ==> r.value.factor == 0.0 && r.value.factorScaled.None? && r.value.labelId == ""
    ensures r.Err? ==> r.error == InvalidArgument("scaleFactory(" + ToString(dtype) + ")", "unsupported type")
  {
    match AccumulatorScalar(dtype.elem.scalar)
    case Some(q) =>
      var accumulator := if dtype.elem.Complex? then Complex(q) else Real(q);
      Ok(ScaleBlock(dtype.elem, accumulator, q, dtype.dimension, 0.0, None, ""))
    case None =>
      Err(InvalidArgument("scaleFactory(" + ToString(dtype) + ")", "unsupported type"))
  }

  /** Both ports carry exactly the requested type, dimension included. */
  lemma ScalePortsCarryRequestedType(dtype: DType)
    requires ScaleFactory(dtype).Ok?
    ensures InputPort(ScaleFactory(dtype).value) == PortSpec(0, dtype)
    ensures OutputPort(ScaleFactory(dtype).value) == PortSpec(0, dtype)
  {
  }

  /** The accumulator is never narrower than the element type and keeps its
      kind: integers accumulate in a signed integer, floats in the same float. */
  lemma AccumulatorNeverNarrower(dtype: DType)
    requires ScaleFactory(dtype).Ok?
    ensures var acc := ScaleFactory(dtype).value.accumulator.scalar;
      && ScalarSize(acc) >= ScalarSize(dtype.elem.scalar)
      && (IsSignedScalar(acc) <==> IsSignedScalar(dtype.elem.scalar))
      && (IsFloatScalar(acc) <==> IsFloatScalar(dtype.elem.scalar))
  {
  }

  /** No unsigned type, real or complex, has a Scale block. */
  lemma UnsignedTypesRejected(dtype: DType)
    requires IsUnsignedScalar(dtype.elem.scalar)
    ensures ScaleFactory(dtype).Err?
  {
  }

  /*
   * Setters and getters
   */

  /** Sets the reported factor and the one the multiply reads. */
  function SetFactor(b: ScaleBlock, factor: real): (r: ScaleBlock)
    ensures GetFactor(r) == factor && r.factorScaled == Some(factor)
    ensures r.(factor := b.factor, factorScaled := b.factorScaled) == b
  {
    b.(factor := factor, factorScaled := Some(factor))
  }

  function GetFactor(b: ScaleBlock): real {
    b.factor
  }

  function SetLabelId(b: ScaleBlock, id: string): (r: ScaleBlock)
    ensures GetLabelId(r) == id
    ensures r.(labelId := b.labelId) == b
  {
    b.(labelId := id)
  }

  function GetLabelId(b: ScaleBlock): string {
    b.labelId
  }

  /** A setter call made on the block from outside. */
  datatype ScaleCall = SetFactorCall(factor: real) | SetLabelIdCall(id: string)

  function ApplyCalls(b: ScaleBlock, calls: seq<ScaleCall>): (r: ScaleBlock)
    ensures r.(factor := b.factor, factorScaled := b.factorScaled, labelId := b.labelId) == b
    decreases |calls|
  {
    if |calls| == 0 then b
    else
      var b' := match calls[0]
        case SetFactorCall(f) => SetFactor(b, f)
        case SetLabelIdCall(id) => SetLabelId(b, id);
      ApplyCalls(b', calls[1..])
  }

  lemma {:induction false} ApplyCallsAppend(b: ScaleBlock, first: seq<ScaleCall>, second: seq<ScaleCall>)
    ensures ApplyCalls(b, first + second) == ApplyCalls(ApplyCalls(b, first), second)
    decreases |first|
  {
    if |first| > 0 {
      assert (first + second)[1..] == first[1..] + second;
      var b' := match first[0]
        case SetFactorCall(f) => SetFactor(b, f)
        case SetLabelIdCall(id) => SetLabelId(b, id);
      ApplyCallsAppend(b', first[1..], second);
    } else {
      assert first + second == second;
    }
  }

  /** Calls that are not `setFactor` leave the factor alone, and calls that
      are not `setLabelId` leave the label id alone. */
  lemma {:induction false} ApplyCallsFrame(b: ScaleBlock, calls: seq<ScaleCall>)
    ensures (forall i :: 0 <= i < |calls| ==> !calls[i].SetFactorCall?) ==>
      GetFactor(ApplyCalls(b, calls)) == GetFactor(b)
    ensures (forall i :: 0 <= i < |calls| ==> !calls[i].SetLabelIdCall?) ==>
      GetLabelId(ApplyCalls(b, calls)) == GetLabelId(b)
    decreases |calls|
  {
    if |calls| > 0 {
      var b' := match calls[0]
        case SetFactorCall(f) => SetFactor(b, f)
        case SetLabelIdCall(id) => SetLabelId(b, id);
      ApplyCallsFrame(b', calls[1..]);
      assert forall i :: 1 <= i < |calls| ==> calls[1..][i - 1] == calls[i];
    }
  }

  /** `getFactor` returns the value of the last `setFactor` call. */
  lemma GetFactorReturnsLastSet(b: ScaleBlock, before: seq<ScaleCall>, factor: real, after: seq<ScaleCall>)
    requires forall i :: 0 <= i < |after| ==> !after[i].SetFactorCall?
    ensures GetFactor(ApplyCalls(b, before + [SetFactorCall(factor)] + after)) == factor
  {
    ApplyCallsAppend(b, before + [SetFactorCall(factor)], after);
    ApplyCallsAppend(b, before, [SetFactorCall(factor)]);
    ApplyCallsFrame(ApplyCalls(b, before + [SetFactorCall(factor)]), after);
  }

  /** `getLabelId` returns the value of the last `setLabelId` call. */
  lemma GetLabelIdReturnsLastSet(b: ScaleBlock, before: seq<ScaleCall>, id: string, after: seq<ScaleCall>)
    requires forall i :: 0 <= i < |after| ==> !after[i].SetLabelIdCall?
    ensures GetLabelId(ApplyCalls(b, before + [SetLabelIdCall(id)] + after)) == id
  {
    ApplyCallsAppend(b, before + [SetLabelIdCall(id)], after);
    ApplyCallsAppend(b, before, [SetLabelIdCall(id)]);
    ApplyCallsFrame(ApplyCalls(b, before + [SetLabelIdCall(id)]), after);
  }

  /*
   * The label scan
   */

  /** How many elements this call processes, and the factor it uses. */
  datatype ScanResult = ScanResult(elems: nat, factor: real)

  /** Whether the label loop calls `setFactor`: it meets a matching label
      at offset 0 before it stops. */
  function ScanSetsFactor(labels: seq<Label<real>>, labelId: string, elems: nat): bool
    decreases |labels|
  {
    if |labels| == 0 || labels[0].index >= elems then false
    else if labels[0].id == labelId then labels[0].index == 0
    else ScanSetsFactor(labels[1..], labelId, elems)
  }

  /** The label loop of `work`: walks the labels in order, stops at the
      first one at or past the end of the batch, applies a matching label at
      offset 0, and ends the batch at a matching label further in. */
  function ScanLabels(labels: seq<Label<real>>, labelId: string, elems: nat, factor: real): (r: ScanResult)
    ensures r.elems <= elems
    ensures elems > 0 ==> r.elems > 0
    ensures r.elems < elems ==>
      exists i :: 0 <= i < |labels| && labels[i].id == labelId && labels[i].index == r.elems
    ensures r.factor == factor || exists i :: 0 <= i < |labels| && labels[i].id == labelId
                                              && labels[i].index == 0 && labels[i].data == r.factor
    ensures !ScanSetsFactor(labels, labelId, elems) ==> r.factor == factor
    decreases |labels|
  {
    if |labels| == 0 || labels[0].index >= elems then
      ScanResult(elems, factor)
    else if labels[0].id == labelId then
      if labels[0].index == 0 then
        var r := ScanLabels(labels[1..], labelId, elems, labels[0].data);
        assert r.elems < elems ==>
          exists i :: 1 <= i < |labels| && labels[i].id == labelId && labels[i].index == r.elems;
        r
      else
        ScanResult(labels[0].index, factor)
    else
      var r := ScanLabels(labels[1..], labelId, elems, factor);
      assert r.elems < elems ==>
        exists i :: 1 <= i < |labels| && labels[i].id == labelId && labels[i].index == r.elems;
      r
  }

  predicate SortedByIndex<V>(labels: seq<Label<V>>) {
    forall i, j :: 0 <= i < j < |labels| ==> labels[i].index <= labels[j].index
  }

  /** The payload of the last label called `labelId` at offset `at`. */
  function LastPayloadAt(labels: seq<Label<real>>, labelId: string, at: nat): Option<real>
    decreases |labels|
  {
    if |labels| == 0 then None
    else
      match LastPayloadAt(labels[1..], labelId, at)
      case Some(p) => Some(p)
      case None =>
        if labels[0].id == labelId && labels[0].index == at then Some(labels[0].data) else None
  }

  /** `k` is where a batch of `elems` elements must end: the smallest
      positive offset below `elems` holding a label called `labelId`, or
      `elems` when there is none. */
  ghost predicate IsBatchEnd(labels: seq<Label<real>>, labelId: string, elems: nat, k: nat) {
    && 0 < k <= elems
    && (forall i :: 0 <= i < |labels| && labels[i].id == labelId && 0 < labels[i].index < elems ==>
          k <= labels[i].index)
    && (k < elems ==> exists i :: 0 <= i < |labels| && labels[i].id == labelId && labels[i].index == k)
  }

  function PayloadOr(p: Option<real>, otherwise: real): real {
    match p
    case Some(v) => v
    case None => otherwise
  }

  lemma {:induction false} LastPayloadAbsent(labels: seq<Label<real>>, labelId: string, at: nat)
    requires forall i :: 0 <= i < |labels| ==> labels[i].index != at || labels[i].id != labelId
    ensures LastPayloadAt(labels, labelId, at) == None
    decreases |labels|
  {
    if |labels| > 0 {
      LastPayloadAbsent(labels[1..], labelId, at);
    }
  }

  lemma {:induction false} LastPayloadPresent(labels: seq<Label<real>>, labelId: string, at: nat, i: nat)
    requires i < |labels| && labels[i].id == labelId && labels[i].index == at
    ensures LastPayloadAt(labels, labelId, at).Some?
    decreases |labels|
  {
    if i > 0 {
      LastPayloadPresent(labels[1..], labelId, at, i - 1);
    }
  }

  /** On offset-sorted labels the scan ends the batch at the first matching
      label inside it, and uses the payload of the last matching label at
      offset 0 (or keeps the factor when there is none). */
  lemma {:induction false} ScanMatchesReference(labels: seq<Label<real>>, labelId: string, elems: nat, factor: real)
    requires SortedByIndex(labels)
    requires elems > 0
    ensures IsBatchEnd(labels, labelId, elems, ScanLabels(labels, labelId, elems, factor).elems)
    ensures ScanLabels(labels, labelId, elems, factor).factor
         == PayloadOr(LastPayloadAt(labels, labelId, 0), factor)
    decreases |labels|
  {
    if |labels| == 0 {
    } else if labels[0].index >= elems {
      LastPayloadAbsent(labels, labelId, 0);
    } else if labels[0].id == labelId && labels[0].index > 0 {
      LastPayloadAbsent(labels, labelId, 0);
    } else {
      var rest := labels[1..];
      var f := if labels[0].id == labelId then labels[0].data else factor;
      ScanMatchesReference(rest, labelId, elems, f);
      assert ScanLabels(labels, labelId, elems, factor) == ScanLabels(rest, labelId, elems, f);
      BatchEndExtend(labels, labelId, elems, ScanLabels(rest, labelId, elems, f).elems);
    }
  }

  /** On offset-sorted labels, the loop calls `setFactor` exactly when a
      matching label sits at offset 0. */
  lemma {:induction false} ScanSetsFactorMatchesReference(labels: seq<Label<real>>, labelId: string, elems: nat)
    requires SortedByIndex(labels)
    requires elems > 0
    ensures ScanSetsFactor(labels, labelId, elems) <==> LastPayloadAt(labels, labelId, 0).Some?
    decreases |labels|
  {
    if |labels| == 0 {
    } else if labels[0].index >= elems || (labels[0].id == labelId && labels[0].index > 0) {
      LastPayloadAbsent(labels, labelId, 0);
    } else if labels[0].id == labelId {
      LastPayloadPresent(labels, labelId, 0, 0);
    } else {
      var rest := labels[1..];
      assert SortedByIndex(rest) by {
        forall i, j | 0 <= i < j < |rest| ensures rest[i].index <= rest[j].index {
          assert rest[i] == labels[i + 1] && rest[j] == labels[j + 1];
        }
      }
      ScanSetsFactorMatchesReference(rest, labelId, elems);
    }
  }

  /** A label that cannot end the batch does not move the batch end. */
  lemma BatchEndExtend(labels: seq<Label<real>>, labelId: string, elems: nat, k: nat)
    requires |labels| > 0
    requires !(labels[0].id == labelId && 0 < labels[0].index < elems)
    requires IsBatchEnd(labels[1..], labelId, elems, k)
    ensures IsBatchEnd(labels, labelId, elems, k)
  {
    var rest := labels[1..];
    forall i | 0 <= i < |labels| && labels[i].id == labelId && 0 < labels[i].index < elems
      ensures k <= labels[i].index
    {
      assert i > 0 && rest[i - 1] == labels[i];
    }
    if k < elems {
      var j :| 0 <= j < |rest| && rest[j].id == labelId && rest[j].index == k;
      assert labels[j + 1] == rest[j];
    }
  }

  /** The labels the next call sees once `n` elements were consumed: those
      at or past `n`, moved `n` places towards the front. */
  function Advance<V>(labels: seq<Label<V>>, n: nat): seq<Label<V>>
    decreases |labels|
  {
    if |labels| == 0 then []
    else
      (if labels[0].index >= n then [labels[0].(index := labels[0].index - n)] else [])
      + Advance(labels[1..], n)
  }

  lemma {:induction false} AdvanceLowerBound<V>(labels: seq<Label<V>>, n: nat, bound: nat)
    requires forall i :: 0 <= i < |labels| ==> labels[i].index >= bound
    ensures forall i :: 0 <= i < |Advance(labels, n)| ==> Advance(labels, n)[i].index + n >= bound
    decreases |labels|
  {
    if |labels| > 0 {
      AdvanceLowerBound(labels[1..], n, bound);
    }
  }

  lemma {:induction false} AdvanceSorted<V>(labels: seq<Label<V>>, n: nat)
    requires SortedByIndex(labels)
    ensures SortedByIndex(Advance(labels, n))
    decreases |labels|
  {
    if |labels| > 0 {
      var rest := labels[1..];
      AdvanceSorted(rest, n);
      AdvanceLowerBound(rest, n, labels[0].index);
    }
  }

  lemma {:induction false} LastPayloadAfterAdvance(labels: seq<Label<real>>, labelId: string, n: nat)
    ensures LastPayloadAt(Advance(labels, n), labelId, 0) == LastPayloadAt(labels, labelId, n)
    decreases |labels|
  {
    if |labels| > 0 {
      var rest := labels[1..];
      LastPayloadAfterAdvance(rest, labelId, n);
      if labels[0].index >= n {
        var head := labels[0].(index := labels[0].index - n);
        assert Advance(labels, n) == [head] + Advance(rest, n);
        assert ([head] + Advance(rest, n))[1..] == Advance(rest, n);
      } else {
        assert Advance(labels, n) == Advance(rest, n);
      }
    }
  }

  /** The sample-exact boundary: when a call ends its batch at a matching
      label, the next call (whatever its length and starting factor) starts
      with that label's payload as its factor. */
  lemma TruncatedLabelAppliesOnNextCall(
    labels: seq<Label<real>>, labelId: string, elems: nat, factor: real,
    nextElems: nat, nextFactor: real)
    requires SortedByIndex(labels)
    requires elems > 0 && nextElems > 0
    requires ScanLabels(labels, labelId, elems, factor).elems < elems
    ensures var k := ScanLabels(labels, labelId, elems, factor).elems;
      && LastPayloadAt(labels, labelId, k).Some?
      && ScanLabels(Advance(labels, k), labelId, nextElems, nextFactor).factor
         == LastPayloadAt(labels, labelId, k).value
  {
    var k := ScanLabels(labels, labelId, elems, factor).elems;
    var i :| 0 <= i < |labels| && labels[i].id == labelId && labels[i].index == k;
    LastPayloadPresent(labels, labelId, k, i);
    AdvanceSorted(labels, k);
    ScanMatchesReference(Advance(labels, k), labelId, nextElems, nextFactor);
    LastPayloadAfterAdvance(labels, labelId, k);
  }

  /*
   * work()
   */

  /** What one call of `work` did: the block afterwards, the counts passed
      to `consume` and `produce`, and the elements written to the output. */
  datatype ScaleStep<V> = ScaleStep(block: ScaleBlock, consumed: nat, produced: nat, output: seq<V>)

  /** The factor the multiply reads: the one `setFactor` last stored, or
      `unset`, standing for whatever the uninitialised member holds. */
  function MultiplierOf(b: ScaleBlock, unset: real): real {
    PayloadOr(b.factorScaled, unset)
  }

  /** One call of `work`. `input` holds the scalars of the input buffer,
      `dimension` of them per element, and `mul` is the fixed-point multiply
      of a factor and one scalar. */
  function Work<V>(b: ScaleBlock, minInElements: nat, labels: seq<Label<real>>,
                   input: seq<V>, mul: (real, V) -> V, unset: real): (r: ScaleStep<V>)
    requires |input| >= minInElements * b.dimension
    ensures minInElements == 0 ==> r == ScaleStep(b, 0, 0, [])
    ensures r.consumed == r.produced <= minInElements
    ensures minInElements > 0 ==> r.consumed > 0
    ensures b.labelId == "" ==> r.block == b && r.consumed == minInElements
    ensures r.block == b.(factor := r.block.factor, factorScaled := r.block.factorScaled)
    ensures r.block.factorScaled == b.factorScaled || r.block.factorScaled == Some(r.block.factor)
    ensures r.block.factor != b.factor ==> r.block.factorScaled == Some(r.block.factor)
    ensures |r.output| == r.consumed * b.dimension <= |input|
    ensures forall i :: 0 <= i < |r.output| ==> r.output[i] == mul(MultiplierOf(r.block, unset), input[i])
  {
    if minInElements == 0 then ScaleStep(b, 0, 0, [])
    else
      var scan :=
        if b.labelId != "" then ScanLabels(labels, b.labelId, minInElements, b.factor)
        else ScanResult(minInElements, b.factor);
      var block :=
        if b.labelId != "" && ScanSetsFactor(labels, b.labelId, minInElements) then SetFactor(b, scan.factor)
        else b;
      var n := scan.elems * b.dimension;
      MulMonotone(scan.elems, minInElements, b.dimension);
      ScaleStep(block, scan.elems, scan.elems,
                seq(n, i requires 0 <= i < n => mul(MultiplierOf(block, unset), input[i])))
  }

  /** `work` sizes its batch from the input alone and never looks at the
      room in the output buffer: with no label id and one input element more
      than the output can take, it produces, and writes, more than fits. */
  lemma WorkIgnoresOutputCapacity<V>(b: ScaleBlock, outElements: nat, labels: seq<Label<real>>,
                                     input: seq<V>, mul: (real, V) -> V, unset: real)
    requires b.labelId == ""
    requires |input| >= (outElements + 1) * b.dimension
    ensures var r := Work(b, outElements + 1, labels, input, mul, unset);
      && r.produced > outElements
      && (b.dimension > 0 ==> |r.output| > outElements * b.dimension)
  {
    assert (outElements + 1) * b.dimension == outElements * b.dimension + b.dimension;
  }

  /** `work` with the batch bounded by the output's room as well, as
      `minElements` gives it: never more elements than either side holds,
      and the same call as `Work` whenever the output has room for the whole
      input batch. */
  function WorkWithinOutput<V>(b: ScaleBlock, minInElements: nat, outElements: nat, labels: seq<Label<real>>,
                               input: seq<V>, mul: (real, V) -> V, unset: real): (r: ScaleStep<V>)
    requires |input| >= minInElements * b.dimension
    ensures r.consumed == r.produced
    ensures r.produced <= outElements && r.produced <= minInElements
    ensures |r.output| <= outElements * b.dimension
    ensures r.produced == 0 <==> minInElements == 0 || outElements == 0
    ensures outElements >= minInElements ==> r == Work(b, minInElements, labels, input, mul, unset)
  {
    var n := if outElements < minInElements then outElements else minInElements;
    MulMonotone(n, minInElements, b.dimension);
    var r := Work(b, n, labels, input, mul, unset);
    MulMonotone(r.produced, outElements, b.dimension);
    r
  }

  /** With a label id set and offset-sorted labels, `work` processes exactly
      up to the first matching label inside the batch, with the payload of
      the last matching label at offset 0 as its factor. */
  lemma WorkFollowsLabels<V>(b: ScaleBlock, minInElements: nat, labels: seq<Label<real>>,
                              input: seq<V>, mul: (real, V) -> V, unset: real)
    requires |input| >= minInElements * b.dimension
    requires SortedByIndex(labels)
    requires b.labelId != "" && minInElements > 0
    ensures var r := Work(b, minInElements, labels, input, mul, unset);
      && IsBatchEnd(labels, b.labelId, minInElements, r.consumed)
      && r.block.factor == PayloadOr(LastPayloadAt(labels, b.labelId, 0), b.factor)
      && r.block.factorScaled
         == (if LastPayloadAt(labels, b.labelId, 0).Some? then Some(r.block.factor) else b.factorScaled)
  {
    ScanMatchesReference(labels, b.labelId, minInElements, b.factor);
    ScanSetsFactorMatchesReference(labels, b.labelId, minInElements);
  }

  /** A block fresh from the factory, with no label id, multiplies by the
      uninitialised member while `getFactor` reports 0.0: what the first
      output holds depends on `unset`. */
  lemma FreshBlockReadsUnsetFactor<V>(dtype: DType, minInElements: nat, labels: seq<Label<real>>,
                                      input: seq<V>, mul: (real, V) -> V, unset: real)
    requires ScaleFactory(dtype).Ok? && dtype.dimension > 0 && minInElements > 0
    requires |input| >= minInElements * dtype.dimension
    ensures var b := ScaleFactory(dtype).value;
      var r := Work(b, minInElements, labels, input, mul, unset);
      && GetFactor(r.block) == 0.0
      && |r.output| > 0
      && r.output[0] == mul(unset, input[0])
  {
    var b := ScaleFactory(dtype).value;
    var r := Work(b, minInElements, labels, input, mul, unset);
    MulMonotone(1, minInElements, dtype.dimension);
    assert |r.output| == minInElements * dtype.dimension;
  }

  /** The block as its constructor evidently means it: the multiply starts
      from the reported factor 0.0, as if the constructor called
      `setFactor(0.0)`. */
  function ScaleFactoryInitialised(dtype: DType): (r: Result<ScaleBlock>)
    ensures r.Ok? <==> ScaleFactory(dtype).Ok?
    ensures r.Ok? ==> r.value == ScaleFactory(dtype).value.(factorScaled := Some(0.0))
    ensures r.Err? ==> r == ScaleFactory(dtype)
  {
    match ScaleFactory(dtype)
    case Ok(b) => Ok(SetFactor(b, 0.0))
    case Err(e) => Err(e)
  }

  /** The multiply reads the factor `getFactor` reports. */
  predicate FactorsAgree(b: ScaleBlock) {
    b.factorScaled == Some(b.factor)
  }

  /** A block built by the initialising factory keeps its two factors in
      step through every setter and every `work` call, and then scales each
      scalar by the reported factor, whatever the uninitialised member
      would have held. */
  lemma InitialisedBlockScalesByFactor<V>(dtype: DType, calls: seq<ScaleCall>, minInElements: nat,
                                          labels: seq<Label<real>>, input: seq<V>, mul: (real, V) -> V,
                                          unset: real)
    requires ScaleFactoryInitialised(dtype).Ok?
    requires |input| >= minInElements * dtype.dimension
    ensures var b := ApplyCalls(ScaleFactoryInitialised(dtype).value, calls);
      var r := Work(b, minInElements, labels, input, mul, unset);
      && FactorsAgree(r.block)
      && forall i :: 0 <= i < |r.output| ==> r.output[i] == mul(GetFactor(r.block), input[i])
  {
    var b0 := ScaleFactoryInitialised(dtype).value;
    assert b0.dimension == dtype.dimension;
    ApplyCallsKeepFactorsAgree(b0, calls);
    WorkKeepsFactorsAgree(ApplyCalls(b0, calls), minInElements, labels, input, mul, unset);
  }

  /** A `work` call on a block whose two factors agree keeps them agreeing
      and scales by the reported factor. */
  lemma WorkKeepsFactorsAgree<V>(b: ScaleBlock, minInElements: nat, labels: seq<Label<real>>,
                                 input: seq<V>, mul: (real, V) -> V, unset: real)
    requires FactorsAgree(b) && |input| >= minInElements * b.dimension
    ensures var r := Work(b, minInElements, labels, input, mul, unset);
      && FactorsAgree(r.block)
      && forall i :: 0 <= i < |r.output| ==> r.output[i] == mul(GetFactor(r.block), input[i])
  {
    StepKeepsFactorsAgree(b, Work(b, minInElements, labels, input, mul, unset), input, mul, unset);
  }

  lemma StepKeepsFactorsAgree<V>(b: ScaleBlock, r: ScaleStep<V>, input: seq<V>, mul: (real, V) -> V, unset: real)
    requires FactorsAgree(b)
    requires r.block.factorScaled == b.factorScaled || r.block.factorScaled == Some(r.block.factor)
    requires r.block.factor != b.factor ==> r.block.factorScaled == Some(r.block.factor)
    requires |r.output| <= |input|
    requires forall i :: 0 <= i < |r.output| ==> r.output[i] == mul(MultiplierOf(r.block, unset), input[i])
    ensures FactorsAgree(r.block)
    ensures forall i :: 0 <= i < |r.output| ==> r.output[i] == mul(GetFactor(r.block), input[i])
  {
  }

  lemma {:induction false} ApplyCallsKeepFactorsAgree(b: ScaleBlock, calls: seq<ScaleCall>)
    requires FactorsAgree(b)
    ensures FactorsAgree(ApplyCalls(b, calls))
    decreases |calls|
  {
    if |calls| > 0 {
      var b' := match calls[0]
        case SetFactorCall(f) => SetFactor(b, f)
        case SetLabelIdCall(id) => SetLabelId(b, id);
      ApplyCallsKeepFactorsAgree(b', calls[1..]);
    }
  }

  /** Labels with another id, or at or past the end of the batch, change
      neither the batch length nor the factor. */
  lemma IrrelevantLabelsIgnored(labels: seq<Label<real>>, labelId: string, elems: nat, factor: real)
    requires SortedByIndex(labels) && elems > 0
    requires forall i :: 0 <= i < |labels| ==> labels[i].id != labelId || labels[i].index >= elems
    ensures ScanLabels(labels, labelId, elems, factor) == ScanResult(elems, factor)
  {
    ScanMatchesReference(labels, labelId, elems, factor);
    LastPayloadAbsent(labels, labelId, 0);
  }

  /** A batch of 20 with "X" labels at offsets 0 (payload 5) and 12
      (payload 9): the first call processes 12 elements at factor 5, the
      next call applies 9 from its first element. */
  lemma TwoLabelExample()
    ensures var labels := [Label("X", 5.0, 0), Label("X", 9.0, 12)];
      && ScanLabels(labels, "X", 20, 1.0) == ScanResult(12, 5.0)
      && ScanLabels(Advance(labels, 12), "X", 8, 5.0) == ScanResult(8, 9.0)
  {
    var labels := [Label("X", 5.0, 0), Label("X", 9.0, 12)];
    assert Advance(labels, 12) == [Label("X", 9.0, 0)];
  }
}

=== FILE: streams.dfy ===
/** Stream-side vocabulary shared by the blocks: in-band labels, emitted
    signals, declared ports, and the device array a block hands to a port. */
module Streams {
  import opened DTypes

  /** A label attached to a stream buffer: identifier, payload and the
      element offset it sits at, counted from the start of the buffer. */
  datatype Label<+V> = Label(id: string, data: V, index: nat)

  /** A signal a block emitted, with its argument. */
  datatype Signal<+V> = Signal(name: string, value: V)

  /** A port a block declared during construction. */
  datatype PortSpec = PortSpec(index: nat, dtype: DType)

  /** A device-resident two-dimensional array of `dims0` rows and `dims1`
      columns. Elements are stored column by column, as ArrayFire does:
      the element at row `r`, column `c` is `data[c * dims0 + r]`. */
  datatype AfArray<V> = AfArray(dtype: AfDType, dims0: nat, dims1: nat, data: seq<V>)

  predicate WellShaped<V>(a: AfArray<V>) {
    |a.data| == a.dims0 * a.dims1
  }

  /** ArrayFire's dimension count of an array whose two trailing dimensions
      are 1: an empty array has none, a single element has one, and a unit
      trailing dimension is not counted. */
  function NumDims<V>(a: AfArray<V>): (n: nat)
    ensures n == 2 <==> a.dims0 >= 1 && a.dims1 >= 2
  {
    if a.dims0 * a.dims1 == 0 then 0
    else if a.dims0 * a.dims1 == 1 then 1
    else if a.dims1 != 1 then 2
    else 1
  }
}

=== FILE: test_utility.dfy ===
/** Test-side helpers for batched blocks: packing equal-length stream
    buffers into the rows of a two-dimensional device array and back, the
    buffer comparison every block test ends with, and the list of type
    names the tests iterate over. */
module TestUtility {
  import opened Outcomes
  import opened DTypes
  import opened Streams
  import opened Arith
  import Constant

  /** A stream buffer: its type and its items of the element type,
      `dimension` items per stream element. */
  datatype BufferChunk<V> = BufferChunk(dtype: DType, data: seq<V>)

  /** `elements()`: how many whole stream elements the buffer holds. */
  function Elements<V>(c: BufferChunk<V>): (n: nat)
    requires c.dtype.dimension > 0
    ensures n * c.dtype.dimension <= |c.data| && n <= |c.data|
  {
    DivFits(|c.data|, c.dtype.dimension);
    |c.data| / c.dtype.dimension
  }

  /** Every type name with an ArrayFire counterpart, in the tests' order. */
  const AllDTypeNames: seq<string> := [
    "int16",
    "int32",
    "int64",
    "uint8",
    "uint16",
    "uint32",
    "uint64",
    "float32",
    "float64",
    "complex_float32",
    "complex_float64"
  ]

  /** The test list names exactly the types ArrayFire can hold, each once;
      so neither int8 nor any complex integer type is in it. */
  lemma AllDTypeNamesAreTheAfTypes(t: ElemType)
    ensures ElemName(t) in AllDTypeNames <==> HasAfDType(t)
    ensures forall i, j :: 0 <= i < j < |AllDTypeNames| ==> AllDTypeNames[i] != AllDTypeNames[j]
  {
    match t
    case Real(Int16) => assert ElemName(t) == AllDTypeNames[0];
    case Real(Int32) => assert ElemName(t) == AllDTypeNames[1];
    case Real(Int64) => assert ElemName(t) == AllDTypeNames[2];
    case Real(UInt8) => assert ElemName(t) == AllDTypeNames[3];
    case Real(UInt16) => assert ElemName(t) == AllDTypeNames[4];
    case Real(UInt32) => assert ElemName(t) == AllDTypeNames[5];
    case Real(UInt64) => assert ElemName(t) == AllDTypeNames[6];
    case Real(Float32) => assert ElemName(t) == AllDTypeNames[7];
    case Real(Float64) => assert ElemName(t) == AllDTypeNames[8];
    case Complex(Float32) => assert ElemName(t) == AllDTypeNames[9];
    case Complex(Float64) => assert ElemName(t) == AllDTypeNames[10];
    case Real(_) =>
    case Complex(_) =>
  }

  /** The Constant block is built for exactly the types the tests list. */
  lemma ConstantFactoryAcceptsTestList<V, W>(device: string, dtype: DType, constant: V, toAf: V -> W)
    ensures Constant.ConstantFactory(device, dtype, constant, toAf).Ok? <==> Name(dtype) in AllDTypeNames
  {
    AllDTypeNamesAreTheAfTypes(dtype.elem);
  }

  /** The type whose single random test value is produced for `name`; a
      name outside the test list yields the null object. */
  function SingleTestInputType(name: string): (r: Option<ElemType>)
    ensures r.Some? <==> name in AllDTypeNames
    ensures r.Some? ==> ElemName(r.value) == name && HasAfDType(r.value)
  {
    if name == "int16" then Some(Real(Int16))
    else if name == "int32" then Some(Real(Int32))
    else if name == "int64" then Some(Real(Int64))
    else if name == "uint8" then Some(Real(UInt8))
    else if name == "uint16" then Some(Real(UInt16))
    else if name == "uint32" then Some(Real(UInt32))
    else if name == "uint64" then Some(Real(UInt64))
    else if name == "float32" then Some(Real(Float32))
    else if name == "float64" then Some(Real(Float64))
    else if name == "complex_float32" then Some(Complex(Float32))
    else if name == "complex_float64" then Some(Complex(Float64))
    else None
  }

  /*
   * Packing buffers into rows
   */

  lemma ColumnMajorIndex(r: nat, c: nat, rows: nat, cols: nat)
    requires r < rows && c < cols
    ensures c * rows + r < rows * cols
  {
    assert c * rows + r < c * rows + rows == (c + 1) * rows;
    assert (c + 1) * rows <= cols * rows by {
      assert c + 1 <= cols;
    }
  }

  lemma DivModColumnMajor(r: nat, c: nat, rows: nat)
    requires r < rows
    ensures (c * rows + r) / rows == c && (c * rows + r) % rows == r
  {
    var k := c * rows + r;
    var q := k / rows;
    var m := k % rows;
    assert k == q * rows + m;
    if q < c {
      MulMonotone(q + 1, c, rows);
    } else if q > c {
      MulMonotone(c + 1, q, rows);
    }
  }

  lemma ColumnMajorSplit(k: nat, rows: nat, cols: nat)
    requires k < rows * cols
    ensures rows > 0 && k % rows < rows && k / rows < cols
    ensures (k / rows) * rows + k % rows == k
  {
  }

  /** The element at row `r`, column `c` of a well-shaped array. */
  function Cell<V>(a: AfArray<V>, r: nat, c: nat): V
    requires WellShaped(a) && r < a.dims0 && c < a.dims1
  {
    ColumnMajorIndex(r, c, a.dims0, a.dims1);
    a.data[c * a.dims0 + r]
  }

  /** The caller's promise: all buffers share one type and one length. */
  predicate SameTypeAndLength<V>(chunks: seq<BufferChunk<V>>) {
    forall i :: 0 <= i < |chunks| ==>
      chunks[i].dtype == chunks[0].dtype && |chunks[i].data| == |chunks[0].data|
  }

  const EmptyChunkList: string := "bufferChunks.empty()"
  const NoAfDType: string := "no af::dtype for this type"

  /** Packs the buffers into an array with one row per buffer. */
  function ConvertBufferChunksTo2DAfArray<V>(chunks: seq<BufferChunk<V>>): (r: Result<AfArray<V>>)
    requires SameTypeAndLength(chunks)
    ensures r.Ok? <==> |chunks| > 0 && HasAfDType(chunks[0].dtype.elem)
    ensures |chunks| == 0 ==> r == Err(TestFailure(EmptyChunkList))
    ensures r.Ok? ==> ToAfDType(chunks[0].dtype.elem) == Some(r.value.dtype)
    ensures r.Ok? ==> WellShaped(r.value) && r.value.dims0 == |chunks| && r.value.dims1 == |chunks[0].data|
    ensures r.Ok? ==> forall i, c :: 0 <= i < |chunks| && 0 <= c < |chunks[0].data| ==>
      Cell(r.value, i, c) == chunks[i].data[c]
  {
    if |chunks| == 0 then Err(TestFailure(EmptyChunkList))
    else
      match ToAfDType(chunks[0].dtype.elem)
      case None => Err(InvalidArgument(NoAfDType, Name(chunks[0].dtype)))
      case Some(afType) =>
        var rows := |chunks|;
        var cols := |chunks[0].data|;
        var data := seq(rows * cols, k requires 0 <= k < rows * cols =>
          ColumnMajorSplit(k, rows, cols); chunks[k % rows].data[k / rows]);
        var a := AfArray(afType, rows, cols, data);
        assert forall i, c :: 0 <= i < rows && 0 <= c < cols ==> Cell(a, i, c) == chunks[i].data[c] by {
          forall i, c | 0 <= i < rows && 0 <= c < cols
            ensures Cell(a, i, c) == chunks[i].data[c]
          {
            ColumnMajorIndex(i, c, rows, cols);
            DivModColumnMajor(i, c, rows);
          }
        }
        Ok(a)
  }

  const NotTwoDimensional: string := "2 != afArray.numdims()"

  /** Splits a two-dimensional array into one buffer per row. */
  function Convert2DAfArrayToBufferChunks<V>(a: AfArray<V>): (r: Result<seq<BufferChunk<V>>>)
    requires WellShaped(a)
    ensures r.Ok? <==> NumDims(a) == 2 && FromAfDType(a.dtype).Some?
    ensures NumDims(a) != 2 ==> r == Err(TestFailure(NotTwoDimensional))
    ensures r.Ok? ==> |r.value| == a.dims0
    ensures r.Ok? ==> forall i :: 0 <= i < a.dims0 ==>
      && r.value[i].dtype == DType(FromAfDType(a.dtype).value, 1)
      && |r.value[i].data| == a.dims1
      && forall c :: 0 <= c < a.dims1 ==> r.value[i].data[c] == Cell(a, i, c)
  {
    if NumDims(a) != 2 then Err(TestFailure(NotTwoDimensional))
    else
      match FromAfDType(a.dtype)
      case None => Err(InvalidArgument(NoAfDType, "af::dtype"))
      case Some(t) =>
        Ok(seq(a.dims0, i requires 0 <= i < a.dims0 =>
          BufferChunk(DType(t, 1), seq(a.dims1, c requires 0 <= c < a.dims1 => Cell(a, i, c)))))
  }

  /** Buffers of one ArrayFire type, dimension 1 and at least two elements
      come back unchanged from packing and unpacking. */
  lemma PackThenUnpack<V>(chunks: seq<BufferChunk<V>>)
    requires |chunks| > 0 && SameTypeAndLength(chunks)
    requires HasAfDType(chunks[0].dtype.elem) && chunks[0].dtype.dimension == 1
    requires |chunks[0].data| >= 2
    ensures ConvertBufferChunksTo2DAfArray(chunks).Ok?
    ensures Convert2DAfArrayToBufferChunks(ConvertBufferChunksTo2DAfArray(chunks).value) == Ok(chunks)
  {
    var a := ConvertBufferChunksTo2DAfArray(chunks).value;
    var back := Convert2DAfArrayToBufferChunks(a).value;
    forall i | 0 <= i < |chunks|
      ensures back[i] == chunks[i]
    {
      assert back[i].data == chunks[i].data;
    }
    assert back == chunks;
  }

  /** A two-dimensional array of a stream-representable type comes back
      unchanged from unpacking and packing. */
  lemma UnpackThenPack<V>(a: AfArray<V>)
    requires WellShaped(a) && NumDims(a) == 2 && FromAfDType(a.dtype).Some?
    ensures Convert2DAfArrayToBufferChunks(a).Ok?
    ensures var chunks := Convert2DAfArrayToBufferChunks(a).value;
      SameTypeAndLength(chunks) && ConvertBufferChunksTo2DAfArray(chunks) == Ok(a)
  {
    AfDTypeRoundTrip(a.dtype);
    var chunks := Convert2DAfArrayToBufferChunks(a).value;
    var b := ConvertBufferChunksTo2DAfArray(chunks).value;
    forall k | 0 <= k < |a.data|
      ensures b.data[k] == a.data[k]
    {
      ColumnMajorSplit(k, a.dims0, a.dims1);
      var r, c := k % a.dims0, k / a.dims0;
      assert b.data[k] == Cell(b, r, c);
    }
    assert b.data == a.data;
  }

  /** Buffers of a single element do not survive the trip: the packed array
      has one column, which ArrayFire does not count as a dimension. */
  lemma SingleElementChunksRejected<V>(chunks: seq<BufferChunk<V>>)
    requires |chunks| > 0 && SameTypeAndLength(chunks)
    requires HasAfDType(chunks[0].dtype.elem) && |chunks[0].data| == 1
    ensures ConvertBufferChunksTo2DAfArray(chunks).Ok?
    ensures Convert2DAfArrayToBufferChunks(ConvertBufferChunksTo2DAfArray(chunks).value).Err?
  {
  }

  /*
   * Comparing buffers
   */

  /** The first position where `same` fails, if any. */
  function FirstMismatch<V>(xs: seq<V>, ys: seq<V>, same: (V, V) -> bool): (r: Option<nat>)
    requires |xs| == |ys|
    ensures r.None? <==> forall i :: 0 <= i < |xs| ==> same(xs[i], ys[i])
    ensures r.Some? ==> r.value < |xs| && !same(xs[r.value], ys[r.value])
    ensures r.Some? ==> forall j :: 0 <= j < r.value ==> same(xs[j], ys[j])
    decreases |xs|
  {
    if |xs| == 0 then None
    else if !same(xs[0], ys[0]) then Some(0)
    else
      match FirstMismatch(xs[1..], ys[1..], same)
      case None => None
      case Some(k) => Some(k + 1)
  }

  const IntegerNames: seq<string> := ["int16", "int32", "int64", "uint8", "uint16", "uint32", "uint64"]
  const FloatNames: seq<string> := ["float32", "float64"]
  const ComplexNames: seq<string> := ["complex_float32", "complex_float64"]

  /** The complex comparison views both buffers as scalars at dimension 1
      and so reads as many items of `actual` as `expected` holds; the
      caller must make them exist. */
  predicate ComplexReadInBounds<V>(expected: BufferChunk<V>, actual: BufferChunk<V>) {
    expected.dtype.dimension > 0 && expected.dtype == actual.dtype && Name(expected.dtype) in ComplexNames
      && Elements(expected) == Elements(actual)
    ==> |expected.data| <= |actual.data|
  }

  /** The check ending every block test: same type, same `elements()`,
      then a comparison. Integer buffers are compared exactly and real
      floating-point ones with `close`, each over their first `elements()`
      items only; complex buffers are compared with `close` over every
      item. A type outside the test list passes once its type and element
      count agree. */
  function TestBufferChunk<V(==)>(expected: BufferChunk<V>, actual: BufferChunk<V>, close: (V, V) -> bool): (r: Result<()>)
    requires expected.dtype.dimension > 0
    requires ComplexReadInBounds(expected, actual)
    ensures r.Ok? ==> expected.dtype == actual.dtype && Elements(expected) == Elements(actual)
    ensures expected.dtype == actual.dtype && Elements(expected) == Elements(actual) ==>
      var n := Elements(expected);
      && (Name(expected.dtype) in IntegerNames ==> (r.Ok? <==> expected.data[..n] == actual.data[..n]))
      && (Name(expected.dtype) in FloatNames ==>
            (r.Ok? <==> forall i :: 0 <= i < n ==> close(expected.data[i], actual.data[i])))
      && (Name(expected.dtype) in ComplexNames ==>
            (r.Ok? <==> forall i :: 0 <= i < |expected.data| ==> close(expected.data[i], actual.data[i])))
      && (Name(expected.dtype) !in IntegerNames + FloatNames + ComplexNames ==> r.Ok?)
  {
    if expected.dtype != actual.dtype then Err(TestFailure("dtype"))
    else if Elements(expected) != Elements(actual) then Err(TestFailure("elements()"))
    else
      var name := Name(expected.dtype);
      var n := Elements(expected);
      var mismatch :=
        if name in IntegerNames then FirstMismatch(expected.data[..n], actual.data[..n], (x, y) => x == y)
        else if name in FloatNames then FirstMismatch(expected.data[..n], actual.data[..n], close)
        else if name in ComplexNames then
          FirstMismatch(expected.data, actual.data[..|expected.data|], close)
        else None;
      if mismatch.Some? then Err(TestFailure("element mismatch")) else Ok(())
  }

  /** At dimension 1 an integer buffer passes exactly when it equals the
      expected one item for item. */
  lemma DimensionOneComparesEveryItem<V>(expected: BufferChunk<V>, actual: BufferChunk<V>, close: (V, V) -> bool)
    requires expected.dtype.dimension == 1 && Name(expected.dtype) in IntegerNames
    ensures TestBufferChunk(expected, actual, close).Ok? <==> expected == actual
  {
    if expected.dtype == actual.dtype && |expected.data| == |actual.data| {
      assert expected.data[..|expected.data|] == expected.data;
      assert actual.data[..|actual.data|] == actual.data;
    }
  }

  /** At dimension 2 only the first `elements()` items are compared, so two
      int16 buffers that differ in their second item pass. */
  lemma WiderElementsCompareOnlyAPrefix(close: (int, int) -> bool)
    ensures TestBufferChunk(BufferChunk(DType(Real(Int16), 2), [1, 2]),
                            BufferChunk(DType(Real(Int16), 2), [1, 3]), close) == Ok(())
  {
    var e := BufferChunk(DType(Real(Int16), 2), [1, 2]);
    var a := BufferChunk(DType(Real(Int16), 2), [1, 3]);
    assert Elements(e) == 1 && Elements(a) == 1;
    assert e.data[..1] == a.data[..1];
  }

  /** An int8 buffer, or one of a complex integer type, is never compared
      element by element. */
  lemma UnlistedTypesCompareOnlyShape<V>(expected: BufferChunk<V>, actual: BufferChunk<V>, close: (V, V) -> bool)
    requires !HasAfDType(expected.dtype.elem) && expected.dtype.dimension > 0
    requires expected.dtype == actual.dtype && |expected.data| == |actual.data|
    ensures ComplexReadInBounds(expected, actual)
    ensures TestBufferChunk(expected, actual, close).Ok?
  {
    var t := expected.dtype.elem;
    AllDTypeNamesAreTheAfTypes(t);
    assert IntegerNames + FloatNames + ComplexNames == AllDTypeNames;
  }
}

=== FILE: utility.dfy ===
/** Backend and device selection for the calling thread, the support-matrix
    check every block factory runs, the complex/real pairing check, and the
    read of one array element of a type known only at run time. */
module Utility {
  import opened Outcomes
  import opened DTypes
  import opened Streams

  /*
   * Backend and device selection
   */

  /** One device the catalog found at start-up. */
  datatype DeviceCacheEntry = DeviceCacheEntry(backend: Backend, deviceIndex: nat, name: string)

  /** The calling thread's ArrayFire state: the active backend and, for
      each backend, the device last made active on it (0 until one is). */
  datatype ThreadState = ThreadState(backend: Backend, devices: map<Backend, nat>)

  function DeviceOf(s: ThreadState, b: Backend): nat {
    if b in s.devices then s.devices[b] else 0
  }

  /** What `af::getDevice()` reports. */
  function ActiveDevice(s: ThreadState): nat {
    DeviceOf(s, s.backend)
  }

  /** The state after a setter, and the exception it threw if any. */
  datatype Update = Update(state: ThreadState, error: Option<Error>)

  const SingleGlobalBackend: string :=
    "ArrayFire build only supports a single global backend"
  const SingleGlobalDevice: string :=
    "ArrayFire build only supports a single global device"

  /** Makes `backend` active for the calling thread. `perThread` is the
      build-time capability `isAFConfigPerThread()`. */
  function SetThreadAFBackend(perThread: bool, s: ThreadState, backend: Backend): (r: Update)
    ensures r.error.None? <==> perThread
    ensures r.error.Some? ==> r.state == s && r.error.value == RuntimeError(SingleGlobalBackend)
    ensures r.error.None? ==> r.state.backend == backend
    ensures forall b :: DeviceOf(r.state, b) == DeviceOf(s, b)
  {
    if perThread then Update(s.(backend := backend), None)
    else Update(s, Some(RuntimeError(SingleGlobalBackend)))
  }

  predicate Matches(e: DeviceCacheEntry, backend: Backend, name: string) {
    e.backend == backend && e.name == name
  }

  /** `std::find_if` over `catalog[start..]`: the position of the first
      entry for `backend` called `name`. */
  function FindDevice(catalog: seq<DeviceCacheEntry>, backend: Backend, name: string, start: nat): (r: Option<nat>)
    requires start <= |catalog|
    ensures r.Some? ==> start <= r.value < |catalog| && Matches(catalog[r.value], backend, name)
    ensures r.Some? ==> forall j :: start <= j < r.value ==> !Matches(catalog[j], backend, name)
    ensures r.None? ==> forall j :: start <= j < |catalog| ==> !Matches(catalog[j], backend, name)
    decreases |catalog| - start
  {
    if start == |catalog| then None
    else if Matches(catalog[start], backend, name) then Some(start)
    else FindDevice(catalog, backend, name, start + 1)
  }

  /** Makes the device called `device` of the active backend active for the
      calling thread. The lookup happens before anything is changed, so a
      miss leaves the state as it was. */
  function SetThreadAFDevice(perThread: bool, catalog: seq<DeviceCacheEntry>, s: ThreadState, device: string): (r: Update)
    ensures r.error.None? <==>
      perThread && exists i :: 0 <= i < |catalog| && Matches(catalog[i], s.backend, device)
    ensures r.error.Some? ==> r.state == s
    ensures !perThread ==> r.error == Some(RuntimeError(SingleGlobalDevice))
    ensures perThread && r.error.Some? ==> r.error.value == NotFound(BackendName(s.backend), device)
    ensures r.error.None? ==>
      exists i :: 0 <= i < |catalog| && Matches(catalog[i], s.backend, device)
        && (forall j :: 0 <= j < i ==> !Matches(catalog[j], s.backend, device))
        && ActiveDevice(r.state) == catalog[i].deviceIndex
    ensures r.state.backend == s.backend
    ensures forall b :: b != s.backend ==> DeviceOf(r.state, b) == DeviceOf(s, b)
  {
    if !perThread then Update(s, Some(RuntimeError(SingleGlobalDevice)))
    else
      match FindDevice(catalog, s.backend, device, 0)
      case Some(i) => Update(s.(devices := s.devices[s.backend := catalog[i].deviceIndex]), None)
      case None => Update(s, Some(NotFound(BackendName(s.backend), device)))
  }

  /*
   * Type validation
   */

  /** Which kinds of element a block accepts. */
  datatype DTypeSupport = DTypeSupport(supportInt: bool, supportUInt: bool, supportFloat: bool, supportComplexFloat: bool)

  predicate SupportsSomething(support: DTypeSupport) {
    support.supportInt || support.supportUInt || support.supportFloat || support.supportComplexFloat
  }

  /** Types no block supports, rejected with their own message. */
  const GlobalUnsupportedTypes: seq<string> := [
    "int8",
    "complex_int8",
    "complex_int16",
    "complex_int32",
    "complex_int64",
    "complex_uint8",
    "complex_uint16",
    "complex_uint32",
    "complex_uint64"
  ]

  const NotSupportedByAnyBlock: string := "PothosArrayFire blocks do not support this type"

  predicate IsDTypeInt(d: DType) {
    d.elem.Real? && IsSignedScalar(d.elem.scalar)
  }

  predicate IsDTypeUInt(d: DType) {
    d.elem.Real? && IsUnsignedScalar(d.elem.scalar)
  }

  predicate IsDTypeFloat(d: DType) {
    d.elem.Real? && IsFloatScalar(d.elem.scalar)
  }

  predicate IsDTypeComplexFloat(d: DType) {
    d.elem.Complex? && IsFloatScalar(d.elem.scalar)
  }

  /** The element types a support matrix admits, listed flag by flag. */
  function AcceptedTypes(support: DTypeSupport): set<ElemType> {
    (if support.supportInt then {Real(Int16), Real(Int32), Real(Int64)} else {})
    + (if support.supportUInt then {Real(UInt8), Real(UInt16), Real(UInt32), Real(UInt64)} else {})
    + (if support.supportFloat then {Real(Float32), Real(Float64)} else {})
    + (if support.supportComplexFloat then {Complex(Float32), Complex(Float64)} else {})
  }

  /** Throws unless `d` is outside the global denylist and its kind has its
      flag set in `support`. */
  function ValidateDType(d: DType, support: DTypeSupport): (r: Result<()>)
    requires SupportsSomething(support)
    ensures Name(d) in GlobalUnsupportedTypes ==> r == Err(InvalidArgument(NotSupportedByAnyBlock, Name(d)))
    ensures r.Ok? <==> d.elem in AcceptedTypes(support)
    ensures r.Err? ==> r.error.InvalidArgument? && r.error.detail == Name(d)
  {
    if Name(d) in GlobalUnsupportedTypes then
      Err(InvalidArgument(NotSupportedByAnyBlock, Name(d)))
    else if (IsDTypeInt(d) && support.supportInt)
         || (IsDTypeUInt(d) && support.supportUInt)
         || (IsDTypeFloat(d) && support.supportFloat)
         || (IsDTypeComplexFloat(d) && support.supportComplexFloat) then
      Ok(())
    else
      Err(InvalidArgument(UnsupportedType, Name(d)))
  }

  /** The denylist holds exactly the types ArrayFire has no element type for. */
  lemma DenylistIsExactlyTheUnrepresentable(t: ElemType)
    ensures ElemName(t) in GlobalUnsupportedTypes <==> !HasAfDType(t)
  {
    match t
    case Real(Int8) => assert ElemName(t) == GlobalUnsupportedTypes[0];
    case Complex(Int8) => assert ElemName(t) == GlobalUnsupportedTypes[1];
    case Complex(Int16) => assert ElemName(t) == GlobalUnsupportedTypes[2];
    case Complex(Int32) => assert ElemName(t) == GlobalUnsupportedTypes[3];
    case Complex(Int64) => assert ElemName(t) == GlobalUnsupportedTypes[4];
    case Complex(UInt8) => assert ElemName(t) == GlobalUnsupportedTypes[5];
    case Complex(UInt16) => assert ElemName(t) == GlobalUnsupportedTypes[6];
    case Complex(UInt32) => assert ElemName(t) == GlobalUnsupportedTypes[7];
    case Complex(UInt64) => assert ElemName(t) == GlobalUnsupportedTypes[8];
    case Real(_) =>
    case Complex(_) =>
  }

  /** A denylisted type is refused with the same error whatever the matrix. */
  lemma DenylistIgnoresSupport(d: DType, s1: DTypeSupport, s2: DTypeSupport)
    requires SupportsSomething(s1) && SupportsSomething(s2)
    requires !HasAfDType(d.elem)
    ensures ValidateDType(d, s1) == ValidateDType(d, s2)
    ensures ValidateDType(d, s1) == Err(InvalidArgument(NotSupportedByAnyBlock, Name(d)))
  {
    DenylistIsExactlyTheUnrepresentable(d.elem);
  }

  /** Whatever validation accepts, ArrayFire can hold. */
  lemma ValidatedTypesHaveAfDType(d: DType, support: DTypeSupport)
    requires SupportsSomething(support)
    requires ValidateDType(d, support).Ok?
    ensures ToAfDType(d.elem).Some?
  {
  }

  const IncompatibleTypes: string := "Incompatible types"

  /** Throws unless the real type is the component type of the complex one,
      judged by dropping the eight characters of "complex_" from its name. */
  function ValidateComplexAndFloatTypesMatch(complexDType: DType, floatDType: DType): (r: Result<()>)
    requires IsDTypeComplexFloat(complexDType)
    requires IsDTypeFloat(floatDType)
    ensures r.Ok? <==> complexDType.elem == Complex(floatDType.elem.scalar)
    ensures r.Err? ==>
      r.error == InvalidArgument(IncompatibleTypes, ScalarName(complexDType.elem.scalar) + ", " + Name(floatDType))
  {
    var complexSubtype := Name(complexDType)[8..];
    assert complexSubtype == ScalarName(complexDType.elem.scalar);
    ElemNameInjective(Real(complexDType.elem.scalar), floatDType.elem);
    if complexSubtype != Name(floatDType) then
      Err(InvalidArgument(IncompatibleTypes, complexSubtype + ", " + Name(floatDType)))
    else
      Ok(())
  }

  /*
   * Reading one element of a run-time typed array
   */

  /** A dynamically typed value, tagged with its stream element type. */
  datatype Object<V> = Object(elem: ElemType, value: V)

  const InvalidDType: string := "Invalid dtype"

  /** ArrayFire's reading of one linear index into an array of `length`
      elements: a negative index counts from the end (`af::end` is -1, the
      last element), and an index outside the array in either direction
      names nothing. */
  function ResolveIndex(index: int, length: nat): (p: Option<nat>)
    ensures p.Some? <==> -(length as int) <= index < length
    ensures p.Some? ==> p.value < length && (p.value == index || p.value == index + length)
  {
    if 0 <= index < length then Some(index)
    else if -(length as int) <= index < 0 then Some(index + length)
    else None
  }

  /** Reads element `index` of `a` as a value of the stream type matching
      the array's element type. Indexing comes first, so an index outside
      the array fails whatever the element type is; b8 and f16 arrays are
      refused after that. */
  function GetArrayIndexOfUnknownType<V>(a: AfArray<V>, index: int): (r: Result<Object<V>>)
    ensures (r.Err? && r.error.IndexOutOfRange?) <==> !(-(|a.data| as int) <= index < |a.data|)
    ensures r.Err? && r.error.IndexOutOfRange? ==> r.error == IndexOutOfRange(index, |a.data|)
    ensures r.Ok? <==> -(|a.data| as int) <= index < |a.data| && !(a.dtype.B8? || a.dtype.F16?)
    ensures r.Ok? ==> ToAfDType(r.value.elem) == Some(a.dtype)
    ensures r.Ok? ==> r.value.value == a.data[if index < 0 then index + |a.data| else index]
    ensures r.Err? && !r.error.IndexOutOfRange? ==> r.error == AssertionViolation(InvalidDType)
  {
    AfDTypeRoundTrip(a.dtype);
    match ResolveIndex(index, |a.data|)
    case None => Err(IndexOutOfRange(index, |a.data|))
    case Some(p) =>
      match FromAfDType(a.dtype)
      case Some(t) => Ok(Object(t, a.data[p]))
      case None => Err(AssertionViolation(InvalidDType))
  }

  /** The end-relative spelling of an index reads the same element, with
      the same outcome, as the plain one: `i - n` and `i` agree for every
      element `i` of an `n`-element array. */
  lemma EndRelativeIndexReadsSameElement<V>(a: AfArray<V>, i: int)
    requires 0 <= i < |a.data|
    ensures GetArrayIndexOfUnknownType(a, i - |a.data|) == GetArrayIndexOfUnknownType(a, i)
  {
  }
}
